=== FILE: README.md ===
# Nutrient arithmetic of a calorie tracker

A model of the core of a small calorie-tracking web application: an Express
server backed by PostgreSQL and a React client. Users keep a list of saved
foods (macros per base amount), log how much of a saved food they ate at a
meal on a date, and set a daily goal (calories and a protein/carb/fat
percentage split). The server scales each log's macros by
`consumed_amount / base_amount`, rounds them to one decimal, buckets the day's
logs by meal and totals them; it converts the goal into gram targets; and it
sums a seven-day window of logs per date.

The model covers:

- the stores, as pure functions from a table to a new table and what the SQL
  statement returns: `saved_foods` (`SavedFoodStore`), `food_logs` with the join,
  the ordered day query and the seven-day aggregate (`FoodLogStore`), and
  `nutrition_goals` as a map with one goal per user (`GoalStore`);
- the per-log scaling and rounding rule (`Scaling`, with one-decimal rounding in
  `Arith`);
- the daily summary (`Summary`), both as a functional specification and as the
  controller's single pass over the logs;
- the request handlers for the summary, logs and goals (`Controllers`), over a
  database value `Db` holding the three tables;
- the client's saved-food form validation, submit guards and live filter
  (`SavedFoodsPage`), and the goal form's edit and submit handlers (`GoalPage`);
- how these parts agree with each other (`Consistency`).

Quantities are exact reals. `Round1` rounds to the nearest tenth with ties
away from zero, which is what `toFixed(1)` does on exact values. Calls into
code that the model cannot see become parameters:

- Postgres's cast of the request's date to a `date` is `castDate`, the same
  for reading and for creating logs. The parsing steps of converting a log
  body to column values are `Casts`: text to an integer, text to a NUMERIC,
  and the text node-postgres sends for a JavaScript number. A value that
  already has its column's type is stored unchanged. A value of another type
  is parsed from the text node-postgres sends for it, and `saved_food_id` must
  fit Postgres's 32-bit `integer`. A failed cast or
  conversion ends in the handler's catch block (500);
- `parseFloat` and `Number` are `parseFloat` and `toNumber`, with None
  standing for NaN;
- `CURRENT_DATE` is `today`, and `created_at` is `now`.

Three facts about the code that a reader might expect otherwise:

- **Totals.** The daily totals are not the exact sum rounded once. The code (`server/controllers/summaryController.js:46-59`) adds up the already rounded per-log values and then rounds again. `Summary.TotalsNearExact` bounds the drift at half a tenth per log plus one final rounding.
- **Weekly points.** The seven-day query (`server/models/foodLogModel.js:62-78`) does not give seven points. It returns one row per date that has logs, fills in no missing day, and has no upper date bound.
- **Streak.** No code in the server or in the modelled pages computes a logging streak, so there is nothing to model.

## Model

| member | source | states |
|---|---|---|
| Scaling.Scaled | server/controllers/summaryController.js:32 | the exact scaled macros are consumed / base times each food macro (stated multiplicatively, without the division) |
| Scaling.Enrich | server/controllers/summaryController.js:32-39 | an enriched entry keeps the log row unchanged and adds four calculated values, each the one-decimal rounding of the exactly scaled macro |
| Scaling.EnrichAll | server/controllers/foodLogControllers.js:37-47 | the enriched list has the rows' length and order, entry i keeping row i and adding its rounded scaled macros |
| Arith.Round1 | server/controllers/summaryController.js:35-38 | the result is a whole number of tenths within half a tenth of x, ties going away from zero |
| Arith.Round1Unique | server/controllers/summaryController.js:35-38 | only one value of whole tenths rounds x in that sense, so the rounding contract determines the value |
| Summary.Push | server/controllers/summaryController.js:42-44 | pushing onto bucket k appends to k and leaves the other three buckets alone |
| Summary.MealEntries | server/controllers/summaryController.js:42-44 | the entries of meal k are exactly the entries logged for k, each as often as it occurs in the input, as a sublist in order |
| Summary.SummaryOf | server/controllers/summaryController.js:17-67 | an entry is in bucket k iff its meal type is k, and then as often as it occurs among the day's entries; buckets keep input order; totals round the sum of the rounded calculated values; no logs gives zero totals and four empty buckets; goals is null iff there is no goal, otherwise the gram targets |
| Summary.BuildSummary | server/controllers/summaryController.js:17-67 | the controller's one pass over the logs, pushing and accumulating, yields exactly `SummaryOf` |
| Summary.SummaryStep | server/controllers/summaryController.js:31-51 | one more log pushes its entry onto its own bucket only (none for an unknown meal type) and adds its calculated macros to the running totals |
| Summary.UnknownMealTypeCounted | server/controllers/summaryController.js:42-50 | an entry with a meal type outside the four keys is in no bucket yet its calculated macros are part of the totals' sum |
| Summary.Targets | server/controllers/summaryController.js:62-67 | the calorie goal is kept and protein, carb and fat grams are the roundings of calories * percent / 100 / 4, / 4 and / 9 |
| Summary.DefaultTargets | server/controllers/summaryController.js:62-67 | the default 2200 kcal split 30/40/30 gives 165 g, 220 g and 73.3 g |
| Summary.TargetsBalance | server/controllers/summaryController.js:64-66 | with a 100 % split the gram targets convert back to the calorie goal within 0.85 kcal |
| Summary.SumCalculatedNearExact | server/controllers/summaryController.js:46-50 | adding n rounded values drifts from the exact sum by at most n / 20 |
| Summary.TotalsNearExact | server/controllers/summaryController.js:53-59 | the day's totals are within (n + 1) / 20 of the exact scaled sum of its n logs |
| Summary.BuildSummaryAsWritten | server/controllers/summaryController.js:42-44 | the loop as written fails (500) exactly when some log's meal type names an Object.prototype member, and otherwise yields the corrected summary |
| Summary.ConstructorMealTypeFails | server/controllers/summaryController.js:42-43 | a single log of meal type "constructor" makes the code as written fail, while the corrected summary buckets it nowhere and counts it in the totals |
| Controllers.HandleGetSummary | server/controllers/summaryController.js:4-75 | a falsy date gives 400 with nothing read or written; an uncastable date gives 500; otherwise the default goal is inserted for a user without one, and the reply is 500 exactly when some log of the day has a meal type naming an Object.prototype member, and 200 with the summary of the day's rows and the user's goal otherwise |
| Controllers.HandleCreateLog | server/controllers/foodLogControllers.js:4-22 | a falsy saved_food_id, consumed_amount, meal_type or date (null, false, 0 or "") gives 400 with no log stored, while `true`, arrays and objects pass; a value that does not convert to its column's type, including a food id outside the range of `integer`, gives 500 with no log stored; otherwise one row holding the four converted values, for the caller, with a fresh id and the current time, is appended and returned with 201 |
| Controllers.TypedBodyStoredAsGiven | server/controllers/foodLogControllers.js:7-16 | a body whose food id is a whole number within the range of `integer`, whose amount is a number and whose meal type is text is stored exactly as sent, under the date the GET handlers read it by |
| Controllers.FoodIdOutOfRangeFails | server/controllers/foodLogControllers.js:14-20 | a whole-number food id outside the 32-bit range of `integer` fails the insert, so the reply is 500 and nothing is stored |
| Controllers.BooleanFields | server/controllers/foodLogControllers.js:10-14 | `false` counts as a missing field (400), while `true` as the meal type passes the check and is stored as the text "true" |
| Controllers.CreatedLogListed | server/models/foodLogModel.js:4-31 | a created log whose food exists is among the rows listed for its date, joined with that food |
| Controllers.HandleGetLogsByDate | server/controllers/foodLogControllers.js:25-55 | a falsy date gives 400 before any lookup; an uncastable date gives 500; otherwise 200 with the day's rows in order, each kept and given its rounded calculated macros |
| Controllers.LogsAgreeWithSummary | server/controllers/foodLogControllers.js:37-47 | when no meal type of the day names an Object.prototype member, the logs endpoint's entries and the summary's agree exactly: each bucket is the endpoint's entries of its meal type, and the totals round the sum of the endpoint's calculated values |
| Controllers.HandleSetGoal | server/controllers/nutritionGoalController.js:7-30 | any null field gives 400 "All fields are required" before the sum is looked at, and 0 is not missing; a split not totalling 100 gives 400 with nothing stored; otherwise exactly the four values are upserted and returned with 200 |
| Controllers.AnyCaloriesAccepted | server/controllers/nutritionGoalController.js:13-22 | any calorie value, zero or negative included, is accepted with a 100 % split |
| Controllers.GoalReply | server/controllers/nutritionGoalController.js:39-43 | no goal gives 404 with its message, a goal gives 200 with the goal |
| Controllers.HandleGetGoal | server/controllers/nutritionGoalController.js:33-48 | the reply carries the user's stored goal, after inserting the default for a user without one |
| Controllers.GetGoalNever404 | server/controllers/nutritionGoalController.js:39-41 | because the store inserts a default, the 404 branch is never taken |
| Controllers.SummaryGoalsFromStore | server/controllers/summaryController.js:62-67 | a summary that is sent never has null goals: they are the targets of the stored goal, the default's for a user who set none |
| Controllers.SetGoalThenRead | server/controllers/nutritionGoalController.js:22-24 | a goal accepted by the set handler is what the get handler returns next, and what the next summary's targets come from whenever that summary is sent |
| FoodLogStore.CreateFoodLog | server/models/foodLogModel.js:4-16 | one row is appended with the given user, food, amount, meal type and date, and returned; a valid table stays valid and the new id is fresh |
| FoodLogStore.Join | server/models/foodLogModel.js:21-25 | the logs of the joined rows are, in order and with their multiplicity, exactly the kept logs whose food exists, and each is paired with its food |
| FoodLogStore.GetFoodLogsByDate | server/models/foodLogModel.js:19-31 | exactly the user's logs of the date that have a food, each with its food's columns, ordered by meal type and then creation time |
| FoodLogStore.SortRows | server/models/foodLogModel.js:26 | the result is sorted by meal type then created_at and is a permutation of the input |
| FoodLogStore.UpdateFoodLog | server/models/foodLogModel.js:34-48 | only the row with both the id and the user changes, and only its amount, meal type and date; with no such row nothing changes and nothing is returned |
| FoodLogStore.DeleteFoodLog | server/models/foodLogModel.js:51-60 | only the row with both the id and the user is removed and returned; with no such row nothing changes |
| FoodLogStore.DeleteRemovesOne | server/models/foodLogModel.js:51-60 | update and delete keep the table valid, and a delete removes exactly one row from the multiset of rows |
| FoodLogStore.OtherUsersUntouched | server/models/foodLogModel.js:42 | creating, updating or deleting for one user leaves every other user's logs exactly as they were |
| FoodLogStore.Get7DayMacros | server/models/foodLogModel.js:62-78 | one row per date on or after today - 6 with a joined log, strictly ascending, each with the exact unrounded scaled sums of that date; a zero base amount fails the query |
| FoodLogStore.WindowDateListed | server/models/foodLogModel.js:72 | every logged date on or after today - 6, however far in the future, has a row |
| FoodLogStore.Dates | server/models/foodLogModel.js:73-74 | the grouped dates are strictly ascending and are exactly the dates present |
| GoalStore.Upsert | server/models/nutritionGoalModel.js:4-24 | the user's goal becomes g whether or not there was one, and is returned; other users' goals are kept |
| GoalStore.GetOrInsert | server/models/nutritionGoalModel.js:27-54 | a stored goal is returned unchanged; a user without one gets 2200/30/40/30 inserted and returned |
| GoalStore.UpsertThenGet | server/models/nutritionGoalModel.js:27-31 | after an upsert, a get returns the upserted goal and inserts nothing |
| GoalStore.UpsertOverwrites | server/models/nutritionGoalModel.js:12-18 | a second upsert replaces all four values of the first |
| GoalStore.OtherUsersUntouched | server/models/nutritionGoalModel.js:12-18 | an upsert or get for one user leaves every other user's goal as it was |
| GoalStore.GetIdempotent | server/models/nutritionGoalModel.js:27-54 | a second get returns the same goal and changes nothing |
| GoalStore.DefaultPercentagesTotal100 | server/models/nutritionGoalModel.js:35-40 | the default split adds up to 100 |
| SavedFoodStore.CreateSavedFood | server/models/savedFoodModel.js:4-16 | one row with the owner and the given seven values, unvalidated, is appended and returned; validity is kept |
| SavedFoodStore.GetSavedFoodsByUser | server/models/savedFoodModel.js:18-25 | a permutation of the user's foods (each as often as in the table, no other food), newest created_at first |
| SavedFoodStore.UpdateSavedFood | server/models/savedFoodModel.js:28-41 | all seven values are overwritten only on the row with both the id and the user; with no such row nothing changes and nothing is returned |
| SavedFoodStore.DeleteSavedFood | server/models/savedFoodModel.js:44-51 | only the row with both the id and the user is removed and returned; with no such row nothing changes |
| SavedFoodStore.DeleteRemovesOne | server/models/savedFoodModel.js:44-51 | a delete keeps the table valid and removes exactly one row from the multiset of rows |
| SavedFoodStore.OtherUsersUntouched | server/models/savedFoodModel.js:35 | creating, updating or deleting for one user leaves every other user's foods exactly as they were |
| SavedFoodsPage.ValidateFormErrors | client/src/pages/SavedFoodsPage.js:149-164 | a field has an error iff it fails its check: a name blank after trimming, a unit other than g or ml, an amount that is NaN, zero or negative; every field is checked and each error carries its field's message |
| SavedFoodsPage.CheckAmountsAt | client/src/pages/SavedFoodsPage.js:157-160 | the forEach adds an error for exactly the listed fields that fail and keeps the errors already recorded |
| SavedFoodsPage.LabelFromKey | client/src/pages/SavedFoodsPage.js:159 | the label in each amount message is the key with its first underscore replaced by a space |
| SavedFoodsPage.ValidIffNoErrors | client/src/pages/SavedFoodsPage.js:162-163 | the form is valid iff no error was recorded |
| SavedFoodsPage.AddFood | client/src/pages/SavedFoodsPage.js:166-168 | the form is posted iff it is valid, and otherwise the errors are shown and nothing is sent |
| SavedFoodsPage.EditSkipsValidation | client/src/pages/SavedFoodsPage.js:209-214 | a food the add form refuses is still sent by the edit path |
| SavedFoodsPage.FilterFoods | client/src/pages/SavedFoodsPage.js:117-126 | a query blank after trimming shows all foods unchanged; otherwise the result is the order-preserving sublist of foods whose lower-cased name contains the lower-cased query, each matching food kept as often as it occurs |
| SavedFoodsPage.CaseInsensitive | client/src/pages/SavedFoodsPage.js:121-122 | a query matches exactly as its lower-cased form does |
| SavedFoodsPage.UntrimmedQuery | client/src/pages/SavedFoodsPage.js:121-122 | the query is not trimmed: one holding a space finds no name without a space |
| GoalPage.HandleChange | client/src/pages/GoalPage.js:33-38 | the named input takes the value and the other three keep theirs |
| GoalPage.ChangesCommute | client/src/pages/GoalPage.js:33-38 | edits to different inputs commute |
| GoalPage.LastChangeWins | client/src/pages/GoalPage.js:33-38 | of two edits to one input the later wins |
| GoalPage.HandleSubmit | client/src/pages/GoalPage.js:40-62 | the goal is sent iff the three percentages convert to numbers summing to exactly 100, otherwise the "must total 100%" message is shown; the payload is the four Number conversions and the calories are not checked |
| GoalPage.CaloriesDoNotGateSubmit | client/src/pages/GoalPage.js:43-51 | editing the calories never changes whether a submit is refused |
| Consistency.PageAndServerAgree | client/src/pages/GoalPage.js:44-60 | the server accepts the page's body iff the page sends it and the calories converted to a number; a sent body with NaN calories gets 400 "All fields are required" |
| Consistency.WindowDayIsDay | server/models/foodLogModel.js:72 | for a date inside the window, the window's rows of that date are exactly the day query's joined rows, in order |
| Consistency.SortSum | server/models/foodLogModel.js:26 | the ORDER BY does not change the exact sum of the rows |
| Consistency.WeekRowOfDay | server/models/foodLogModel.js:62-78 | for a date inside the window the aggregate lists the date iff the day query has rows, and its sums for the date are the exact scaled sums of those rows |
| Consistency.WeekAgreesWithSummary | server/models/foodLogModel.js:62-78 | for a date inside the window whose summary is sent, the aggregate lists the date iff the summary has logs on it, and its sums are within (n + 1) / 20 of the summary's totals |
| Consistency.BucketsInCreationOrder | server/controllers/summaryController.js:31-44 | each bucket of a summary that is sent lists its logs in created_at order, because the day's rows arrive sorted by meal type and then creation time |

## Left out

- Authentication, the Express routes, server start-up and every rendering, toast, modal, axios call and `localStorage` use in the client are not modelled. The fetch on page load and the form reset after an add are left out too. None of them compute anything the core depends on.
- Floating point is not modelled: quantities are exact reals. IEEE-754 effects of `toFixed`, `parseFloat`, `Number` and of NUMERIC-to-string coercion are out, and so are `parseFloat` results of Infinity.
- In the goal handler, JavaScript `+` on strings is out. If the body carried the percentages as strings, `+` would concatenate them; the model takes the request values as numbers, which is what the client sends.
- Database behaviour that the shown code does not express is out: NUMERIC scale, the `TO_CHAR` formatting of the weekly date, the `updated_at` timestamp, and foreign keys and cascades.
- Lower-casing covers ASCII letters only, and strings compare by code point. The database's collation for `ORDER BY meal_type` is not modelled.
- SQL leaves the order of rows with equal meal type and `created_at` open. `FoodLogStore.SortRows` picks the stable order.
- Concurrent requests are out, including the race between two get-or-inserts for the same user.
- Controllers.HandleGetSummary: requires the rows of the requested day to have a base amount other than 0 (`DayHasBases`). Those are the rows the handler divides by. With a zero base, JavaScript yields Infinity or NaN, which is floating point, and nothing in the application prevents such a food. The weekly query instead reports Postgres's division-by-zero error, as None.
- Controllers.HandleGetLogsByDate: requires the same of the requested day's rows, for the same reason.
- Controllers.HandleCreateLog: does not model the foreign key on `saved_food_id`, or any check that the food belongs to the caller. The code makes no such check, and the schema is not part of this model. The column types are taken as `integer` for `saved_food_id` (the type of a SERIAL key), NUMERIC for `consumed_amount`, text for `meal_type` and `date` for `date`.
- Scaling.Scaled: states the ratio multiplicatively, as the product `m * base == consumed * macro`, rather than as the division itself.
- The saved-food controller (`savedFoodControllers.js`) passes store results through to status codes. It is not part of this model.
- No code computes a logging streak or zero-fills the seven-day aggregate, so neither is modelled.

## Findings

| source | as written | input that shows it | evidently intended | confidence | as-written member | corrected member |
|---|---|---|---|---|---|---|
| server/controllers/summaryController.js:42-43 | `if (byMeal[log.meal_type]) byMeal[log.meal_type].push(calculated)`: for a meal type naming an Object.prototype member the lookup finds an inherited function, which is truthy, and `.push` throws, so the summary answers 500 | a log with meal_type "constructor" (the column is free text and the create handler does not restrict it) | a log of an unknown meal type goes into no bucket and still counts in the totals, as it does for any other unknown name | medium, not executed | Summary.BuildSummaryAsWritten, Summary.ConstructorMealTypeFails, Controllers.HandleGetSummary | Summary.BuildSummary, Summary.SummaryOf |

=== FILE: arith.dfy ===
/** Decimal rounding as the application performs it: `+(x).toFixed(1)` and
    `parseFloat((x).toFixed(1))` on an exactly represented value give the
    multiple of 0.1 nearest to x, ties going away from zero (toFixed handles
    the sign first and then picks the larger of two equally near digits). */
module Arith {

  /** x is a whole number of tenths */
  predicate IsTenth(x: real) {
    (x * 10.0).Floor as real == x * 10.0
  }

  /** k tenths */
  function Tenths(k: int): (r: real)
    ensures IsTenth(r)
    ensures r * 10.0 == k as real
  {
    k as real / 10.0
  }

  /** The integer part of a real is at most the real and more than it minus one. */
  lemma FloorBounds(y: real)
    ensures y - 1.0 < y.Floor as real <= y
  {
  }

  /** The nearest tenth to a non-negative x, a tie going up. */
  function RoundUp1(x: real): (r: real)
    requires 0.0 <= x
    ensures IsTenth(r)
    ensures -0.05 < r - x <= 0.05
  {
    var k := (x * 10.0 + 0.5).Floor;
    FloorBounds(x * 10.0 + 0.5);
    Tenths(k)
  }

  /** The nearest tenth to x; a tie goes away from zero. The two interval
      conditions pin the result down uniquely (see Round1Unique). */
  function Round1(x: real): (r: real)
    ensures IsTenth(r)
    ensures 0.0 <= x ==> -0.05 < r - x <= 0.05
    ensures x < 0.0 ==> -0.05 <= r - x < 0.05
  {
    if 0.0 <= x then RoundUp1(x)
    else
      var k := (-x * 10.0 + 0.5).Floor;
      FloorBounds(-x * 10.0 + 0.5);
      Tenths(-k)
  }

  /** Of two whole numbers of tenths, one less than a tenth above the other
      is not above it at all. */
  lemma TenthsLe(y: real, z: real)
    requires IsTenth(y) && IsTenth(z)
    requires y - z < 0.1
    ensures y <= z
  {
    var m := (y * 10.0).Floor;
    var n := (z * 10.0).Floor;
    assert (m - n) as real < 1.0;
    assert m <= n;
  }

  /** Two whole numbers of tenths closer together than a tenth are equal. */
  lemma TenthsClose(y: real, z: real)
    requires IsTenth(y) && IsTenth(z)
    requires -0.1 < y - z < 0.1
    ensures y == z
  {
    TenthsLe(y, z);
    TenthsLe(z, y);
  }

  /** Any tenth lying in Round1's interval around x is Round1(x): the
      interval contract is a complete specification of the rounding. */
  lemma Round1Unique(x: real, y: real)
    requires IsTenth(y)
    requires 0.0 <= x ==> -0.05 < y - x <= 0.05
    requires x < 0.0 ==> -0.05 <= y - x < 0.05
    ensures y == Round1(x)
  {
    TenthsClose(y, Round1(x));
  }

  /** Rounding leaves a value that already is a whole number of tenths alone. */
  lemma Round1OfTenth(x: real)
    requires IsTenth(x)
    ensures Round1(x) == x
  {
    Round1Unique(x, x);
  }

  /** Rounding is symmetric about zero, as toFixed is. */
  lemma Round1Negate(x: real)
    ensures Round1(-x) == -Round1(x)
  {
    if x < 0.0 {
      assert Round1(-x) == Tenths((-x * 10.0 + 0.5).Floor);
    } else if 0.0 < x {
      assert Round1(x) == Tenths((x * 10.0 + 0.5).Floor);
    }
  }

  /** Rounding never reverses the order of two values. */
  lemma Round1Monotonic(x: real, y: real)
    requires x <= y
    ensures Round1(x) <= Round1(y)
  {
    TenthsLe(Round1(x), Round1(y));
  }
}

=== FILE: consistency.dfy ===
/** How the parts of the application agree with each other: the goal page's
    check against the goal endpoint's, the seven-day aggregate against the
    daily summary, and the order of the summary's buckets against the logs
    query's ORDER BY. */
module Consistency {
  import opened Wrappers
  import opened Records
  import opened Sequences
  import opened Text
  import opened Scaling
  import opened Summary
  import opened Controllers
  import SavedFoodStore
  import FoodLogStore
  import GoalPage
  import GoalStore

  // ---------------------------------------------------------------------------
  // The goal page and the goal endpoint

  /** The body the page builds from the form: each input through `Number`. */
  function FormBody(form: GoalPage.GoalForm, toNumber: string -> Option<real>): GoalRequest {
    GoalRequest(toNumber(form.calories), toNumber(form.protein), toNumber(form.carbs), toNumber(form.fats))
  }

  /** The page refuses no body the endpoint would accept, and the endpoint
      accepts a body the page sends exactly when the calories converted to a
      number: the endpoint's only extra check is that the calories are not
      null, which a NaN calorie input arrives as. */
  lemma PageAndServerAgree(db: Db, userId: UserId, form: GoalPage.GoalForm, toNumber: string -> Option<real>)
    ensures var sub := GoalPage.HandleSubmit(form, toNumber);
      sub.Sent? ==> sub.payload == FormBody(form, toNumber)
    ensures HandleSetGoal(db, userId, FormBody(form, toNumber)).reply.status == 200
        <==> GoalPage.HandleSubmit(form, toNumber).Sent? && toNumber(form.calories).Some?
    ensures GoalPage.HandleSubmit(form, toNumber).Sent? && toNumber(form.calories).None? ==>
      HandleSetGoal(db, userId, FormBody(form, toNumber)).reply == Reply(400, Message(GoalFieldsRequired))
  {
  }

  // ---------------------------------------------------------------------------
  // The seven-day aggregate and the daily summary

  /** For a date inside the window, the window's rows of that date are the
      day's rows, in the same order. */
  lemma {:induction false} WindowDayIsDay(logs: seq<FoodLog>, foods: seq<SavedFood>, userId: UserId, today: Day, d: Day)
    requires d >= today - 6
    ensures Filter(FoodLogStore.Join(logs, foods, FoodLogStore.InWindow(userId, today)), FoodLogStore.OnDate(d))
         == FoodLogStore.Join(logs, foods, FoodLogStore.OnDay(userId, d))
  {
    if |logs| > 0 {
      WindowDayIsDay(logs[1..], foods, userId, today, d);
    }
  }

  /** Inserting a row adds its exact macros to the sum. */
  lemma {:induction false} InsertSum(x: LogRow, s: seq<LogRow>)
    requires FoodLogStore.Sorted(s) && HasBase(x) && AllHaveBase(s)
    ensures AllHaveBase(FoodLogStore.Insert(x, s))
    ensures ExactSum(FoodLogStore.Insert(x, s)) == AddMacros(Scaled(x), ExactSum(s))
  {
    if |s| == 0 || FoodLogStore.RowLe(x, s[0]) {
      assert FoodLogStore.Insert(x, s) == [x] + s;
      ExactSumCons(x, s);
    } else {
      var t := s[1..];
      var rest := FoodLogStore.Insert(x, t);
      assert FoodLogStore.Insert(x, s) == [s[0]] + rest;
      assert s == [s[0]] + t;
      assert FoodLogStore.Sorted(t) && AllHaveBase(t);
      InsertSum(x, t);
      ExactSumCons(s[0], rest);
      ExactSumCons(s[0], t);
      AddSwap(Scaled(s[0]), Scaled(x), ExactSum(t));
    }
  }

  /** The exact sum of a row put in front. */
  lemma ExactSumCons(a: LogRow, t: seq<LogRow>)
    requires HasBase(a) && AllHaveBase(t)
    ensures AllHaveBase([a] + t)
    ensures ExactSum([a] + t) == AddMacros(Scaled(a), ExactSum(t))
  {
    assert ([a] + t)[1..] == t;
  }

  /** Two summands can trade places. */
  lemma AddSwap(a: Macros, b: Macros, c: Macros)
    ensures AddMacros(a, AddMacros(b, c)) == AddMacros(b, AddMacros(a, c))
  {
  }

  /** Sorting does not change the exact sum. */
  lemma {:induction false} SortSum(s: seq<LogRow>)
    requires AllHaveBase(s)
    ensures AllHaveBase(FoodLogStore.SortRows(s))
    ensures ExactSum(FoodLogStore.SortRows(s)) == ExactSum(s)
  {
    if |s| > 0 {
      assert AllHaveBase(s[1..]);
      SortSum(s[1..]);
      InsertSum(s[0], FoodLogStore.SortRows(s[1..]));
    }
  }

  /** Some row is dated d exactly when the rows of date d are not empty. */
  lemma {:induction false} HasDateFilter(rows: seq<LogRow>, d: Day)
    ensures FoodLogStore.HasDate(rows, d) <==> |Filter(rows, FoodLogStore.OnDate(d))| > 0
  {
    if |rows| > 0 {
      HasDateFilter(rows[1..], d);
    }
  }

  /** For a date inside the window, the aggregate's exact sum for the date
      is the exact sum of the day's rows, and the window has a row of that
      date exactly when the day has rows. */
  lemma WindowDateIsDay(db: Db, userId: UserId, today: Day, d: Day)
    requires AllHaveBase(FoodLogStore.WindowRows(db.logs, db.foods.rows, userId, today))
    requires d >= today - 6
    ensures var q := FoodLogStore.WindowRows(db.logs, db.foods.rows, userId, today);
      && AllHaveBase(q) && AllHaveBase(DayRows(db, userId, d))
      && FoodLogStore.DaySum(q, d) == ExactSum(DayRows(db, userId, d))
      && (FoodLogStore.HasDate(q, d) <==> |DayRows(db, userId, d)| > 0)
  {
    var q := FoodLogStore.WindowRows(db.logs, db.foods.rows, userId, today);
    var joined := FoodLogStore.Join(db.logs.rows, db.foods.rows, FoodLogStore.OnDay(userId, d));
    var rows := DayRows(db, userId, d);
    WindowDayIsDay(db.logs.rows, db.foods.rows, userId, today, d);
    assert Filter(q, FoodLogStore.OnDate(d)) == joined;
    assert rows == FoodLogStore.SortRows(joined);
    assert AllHaveBase(joined) by {
      assert forall i :: 0 <= i < |joined| ==> joined[i] in q;
    }
    SortSum(joined);
    HasDateFilter(q, d);
  }

  /** For a date d inside the window, the aggregate succeeds, lists d
      exactly when the day has rows, and reports for d the exact sum of the
      day's rows. */
  lemma WeekRowOfDay(db: Db, userId: UserId, today: Day, d: Day)
    requires AllHaveBase(FoodLogStore.WindowRows(db.logs, db.foods.rows, userId, today))
    requires d >= today - 6
    ensures var week := FoodLogStore.Get7DayMacros(db.logs, db.foods.rows, userId, today);
      && week.Some?
      && AllHaveBase(DayRows(db, userId, d))
      && (d in FoodLogStore.DatesOf(week.value) <==> |DayRows(db, userId, d)| > 0)
      && forall i :: 0 <= i < |week.value| && week.value[i].date == d ==>
        week.value[i].totals == ExactSum(DayRows(db, userId, d))
  {
    WindowDateIsDay(db, userId, today, d);
  }

  /** The summary's totals for a date: zero without logs, and within
      (n + 1) / 20 of the exact sum of the day's n rows. */
  lemma SummaryTotalsOfDay(db: Db, userId: UserId, date: Value, castDate: Value -> Option<Day>)
    requires !Falsy(date) && castDate(date).Some?
    requires DayHasBases(db, userId, date, castDate)
    requires NoInheritedMealType(DayRows(db, userId, castDate(date).value))
    ensures var rows := DayRows(db, userId, castDate(date).value);
      var s := HandleGetSummary(db, userId, date, castDate).reply.body.value;
      && AllHaveBase(rows)
      && (|rows| == 0 ==> s.totals == NoMacros)
      && Within(s.totals, ExactSum(rows), 0.05 * (|rows| + 1) as real)
  {
    var rows := DayRows(db, userId, castDate(date).value);
    var goal := Some(GoalStore.GetOrInsert(db.goals, userId).returned);
    TotalsNearExact(rows, goal);
  }

  /** For a date inside the window, the aggregate lists the date exactly when
      the summary has logs on it; a date it leaves out has zero totals in the
      summary; and where it is listed, the summary's totals of the n logs are
      within (n + 1) / 20 of the aggregate's, the drift of adding up rounded
      values instead of exact ones. The window's bases cover the day's rows;
      `DayHasBases` is stated as well because the summary is named in the
      conclusion. */
  lemma WeekAgreesWithSummary(db: Db, userId: UserId, today: Day, date: Value, castDate: Value -> Option<Day>)
    requires AllHaveBase(FoodLogStore.WindowRows(db.logs, db.foods.rows, userId, today))
    requires !Falsy(date) && castDate(date).Some? && castDate(date).value >= today - 6
    requires DayHasBases(db, userId, date, castDate)
    requires NoInheritedMealType(DayRows(db, userId, castDate(date).value))
    ensures var week := FoodLogStore.Get7DayMacros(db.logs, db.foods.rows, userId, today);
      var d := castDate(date).value;
      var s := HandleGetSummary(db, userId, date, castDate).reply.body.value;
      var n := |DayRows(db, userId, d)|;
      && week.Some?
      && (d in FoodLogStore.DatesOf(week.value) <==> n > 0)
      && (n == 0 ==> s.totals == NoMacros)
      && forall i :: 0 <= i < |week.value| && week.value[i].date == d ==>
        Within(s.totals, week.value[i].totals, 0.05 * (n + 1) as real)
  {
    WeekRowOfDay(db, userId, today, castDate(date).value);
    SummaryTotalsOfDay(db, userId, date, castDate);
  }

  // ---------------------------------------------------------------------------
  // Bucket order

  /** the logs query's order, on enriched entries */
  function EntryLe(): (Enriched, Enriched) -> bool {
    (a: Enriched, b: Enriched) => FoodLogStore.RowLe(a.row, b.row)
  }

  /** Each bucket of the summary lists its logs oldest first: the day's rows
      arrive ordered by meal type and then creation time, and a bucket holds
      one meal type only. */
  lemma BucketsInCreationOrder(db: Db, userId: UserId, date: Value, castDate: Value -> Option<Day>, k: string)
    requires !Falsy(date) && castDate(date).Some?
    requires DayHasBases(db, userId, date, castDate)
    requires NoInheritedMealType(DayRows(db, userId, castDate(date).value))
    requires IsMealType(k)
    ensures var b := Bucket(HandleGetSummary(db, userId, date, castDate).reply.body.value.byMeal, k);
      forall i, j :: 0 <= i < j < |b| ==> b[i].row.log.createdAt <= b[j].row.log.createdAt
  {
    var d := castDate(date).value;
    var rows := DayRows(db, userId, d);
    var es := EnrichAll(rows);
    assert Pairwise(es, EntryLe()) by {
      assert Pairwise(rows, FoodLogStore.RowLe);
      forall i, j | 0 <= i < j < |es|
        ensures EntryLe()(es[i], es[j])
      {
        assert FoodLogStore.RowLe(rows[i], rows[j]);
      }
    }
    FilterPairwise(es, InMeal(k), EntryLe());
    var b := Bucket(HandleGetSummary(db, userId, date, castDate).reply.body.value.byMeal, k);
    assert b == Filter(es, InMeal(k));
    StrLtIrreflexive(k);
    forall i, j | 0 <= i < j < |b|
      ensures b[i].row.log.createdAt <= b[j].row.log.createdAt
    {
      assert FoodLogStore.RowLe(b[i].row, b[j].row);
      assert InMeal(k)(b[i]) && InMeal(k)(b[j]);
    }
  }
}

=== FILE: controllers.dfy ===
/** The request handlers of the summary, food-log and goal endpoints, over a
    database of the three tables. The authenticated user's id arrives as a
    parameter; a statement that throws, such as a date string Postgres cannot
    cast, ends in the handler's catch block and a 500 response. */
module Controllers {
  import opened Wrappers
  import opened Records
  import opened Sequences
  import opened Scaling
  import opened Summary
  import SavedFoodStore
  import FoodLogStore
  import GoalStore

  /** The three tables. */
  datatype Db = Db(foods: SavedFoodStore.FoodTable, logs: FoodLogStore.LogTable, goals: GoalStore.GoalTable)

  /** The database after a request, and the response sent. */
  datatype Outcome<T> = Outcome(db: Db, reply: Reply<T>)

  /** The day's rows, as `getFoodLogsByDate` returns them. */
  function DayRows(db: Db, userId: UserId, day: Day): seq<LogRow> {
    FoodLogStore.GetFoodLogsByDate(db.logs, db.foods.rows, userId, day)
  }

  /** When the request's date is given and casts to a day, every row of that
      day has a base amount other than 0: the rows the JavaScript handlers
      divide by their base amount, so each ratio is a finite number. Nothing
      in the application ensures this. */
  predicate DayHasBases(db: Db, userId: UserId, date: Value, castDate: Value -> Option<Day>) {
    !Falsy(date) && castDate(date).Some? ==> AllHaveBase(DayRows(db, userId, castDate(date).value))
  }

  const DateRequired := "Date query parameter is required"
  const SummaryFailed := "Server error generating summary"
  const FetchLogFailed := "Server error fetching log"
  const FieldsMissing := "Missing required fields"
  const CreateLogFailed := "Server error creating log"
  const GoalFieldsRequired := "All fields are required"
  const PercentagesNot100 := "Protein, carb, and fat percentages must be total 100%"
  const GoalNotFound := "No nutrition goal found for user"

  /** `handleGetSummary`. A falsy date is rejected with 400 before anything
      is read. A date Postgres cannot cast fails the query (500). Otherwise
      the day's logs are fetched and the user's goal is read, the default
      being inserted if there is none. Then the loop runs as written
      (`Summary.BuildSummaryAsWritten`): a meal type naming an
      Object.prototype member makes `.push` throw, and the catch block answers
      500 with the goal already inserted; otherwise the summary is sent with
      200. */
  function HandleGetSummary(db: Db, userId: UserId, date: Value, castDate: Value -> Option<Day>): (o: Outcome<DailySummary>)
    requires DayHasBases(db, userId, date, castDate)
    ensures Falsy(date) ==> o == Outcome(db, Reply(400, Message(DateRequired)))
    ensures !Falsy(date) && castDate(date).None? ==> o == Outcome(db, Reply(500, Message(SummaryFailed)))
    ensures !Falsy(date) && castDate(date).Some? ==>
      var rows := DayRows(db, userId, castDate(date).value);
      var goal := GoalStore.GetOrInsert(db.goals, userId);
      && o.db == db.(goals := goal.table)
      && (o.reply.status == 200 <==> NoInheritedMealType(rows))
      && (!NoInheritedMealType(rows) ==> o.reply == Reply(500, Message(SummaryFailed)))
      && (NoInheritedMealType(rows) ==>
           && o.reply.body.Payload? && o.reply.body.value.goals.Some?
           && o.reply.body.value == SummaryOf(rows, Some(goal.returned)))
  {
    if Falsy(date) then Outcome(db, Reply(400, Message(DateRequired)))
    else match castDate(date)
      case None => Outcome(db, Reply(500, Message(SummaryFailed)))
      case Some(day) =>
        var rows := DayRows(db, userId, day);
        var goal := GoalStore.GetOrInsert(db.goals, userId);
        if NoInheritedMealType(rows) then
          Outcome(db.(goals := goal.table), Reply(200, Payload(SummaryOf(rows, Some(goal.returned)))))
        else
          Outcome(db.(goals := goal.table), Reply(500, Message(SummaryFailed)))
  }

  /** The fields of a log-creation request body. */
  datatype LogBody = LogBody(savedFoodId: Value, consumedAmount: Value, mealType: Value, date: Value)

  /** some required field is falsy: null or absent, 0 or "" */
  predicate MissingField(b: LogBody) {
    Falsy(b.savedFoodId) || Falsy(b.consumedAmount) || Falsy(b.mealType) || Falsy(b.date)
  }

  /** The parsing steps of the insert's parameter conversion: node-postgres
      sends a JavaScript number as its text, and Postgres parses text into an
      integer or a NUMERIC column, either of which may fail. */
  datatype Casts = Casts(
    textToInteger: string -> Option<int>,
    textToNumeric: string -> Option<real>,
    numberToText: real -> string)

  /** The text node-postgres sends for a request value: a string as it is,
      a number as JavaScript writes it, a boolean as "true" or "false", an
      array or object as its literal. A null is sent as SQL NULL, which never
      reaches the insert because the handler rejects it first. */
  function SentText(v: Value, c: Casts): Option<string> {
    match v
    case Null => None
    case Num(n) => Some(c.numberToText(n))
    case Text(t) => Some(t)
    case Bool(b) => Some(if b then "true" else "false")
    case Structured(t) => Some(t)
  }

  /** The range of Postgres's `integer`: 32-bit two's complement. */
  const MinInt4 := -0x8000_0000
  const MaxInt4 := 0x7FFF_FFFF

  predicate IsInt4(k: int) {
    MinInt4 <= k <= MaxInt4
  }

  /** A request value as the `integer` column `saved_food_id` (the type of
      the SERIAL key it refers to): a whole number in range is stored as it
      is; a number with a fraction fails, since its text has a decimal point;
      anything else is parsed from its text; and a value outside the range of
      `integer` fails. */
  function ToInteger(v: Value, c: Casts): (r: Option<int>)
    ensures r.Some? ==> IsInt4(r.value)
    ensures v.Num? ==> (r.Some? <==> v.n == v.n.Floor as real && IsInt4(v.n.Floor))
    ensures v.Num? && r.Some? ==> r.value as real == v.n
  {
    var parsed := match v
      case Num(n) => if n == n.Floor as real then Some(n.Floor) else None
      case _ => if SentText(v, c).Some? then c.textToInteger(SentText(v, c).value) else None;
    if parsed.Some? && IsInt4(parsed.value) then parsed else None
  }

  /** A request value as the NUMERIC column `consumed_amount`: a number is
      stored as it is, anything else is parsed from its text. */
  function ToNumeric(v: Value, c: Casts): (r: Option<real>)
    ensures v.Num? ==> r == Some(v.n)
  {
    match v
    case Num(n) => Some(n)
    case _ => if SentText(v, c).Some? then c.textToNumeric(SentText(v, c).value) else None
  }

  /** A request value as the text column `meal_type`: the text sent for it,
      so a string is stored as it is and `true` as "true". */
  function ToText(v: Value, c: Casts): (r: Option<string>)
    ensures v.Text? ==> r == Some(v.s)
    ensures v.Bool? ==> r == Some(if v.b then "true" else "false")
  {
    SentText(v, c)
  }

  /** every field of the body converts to its column's type */
  predicate Converts(b: LogBody, c: Casts, castDate: Value -> Option<Day>) {
    && ToInteger(b.savedFoodId, c).Some? && ToNumeric(b.consumedAmount, c).Some?
    && ToText(b.mealType, c).Some? && castDate(b.date).Some?
  }

  /** `handleCreateLog`. A falsy field is rejected with 400 and nothing is
      stored. A value Postgres cannot convert to its column's type fails the
      insert (500); the date goes through the same cast as the date of the
      GET handlers. Otherwise the log is inserted for the caller holding the
      four converted values and returned with 201. */
  function HandleCreateLog(db: Db, userId: UserId, body: LogBody, casts: Casts, castDate: Value -> Option<Day>, now: int): (o: Outcome<FoodLog>)
    ensures MissingField(body) ==> o == Outcome(db, Reply(400, Message(FieldsMissing)))
    ensures !MissingField(body) && !Converts(body, casts, castDate) ==> o == Outcome(db, Reply(500, Message(CreateLogFailed)))
    ensures o.reply.status == 201 <==> !MissingField(body) && Converts(body, casts, castDate)
    ensures o.reply.status == 201 ==>
      && o.reply.body.Payload?
      && o.db == db.(logs := FoodLogStore.LogTable(db.logs.rows + [o.reply.body.value], db.logs.nextId + 1))
      && o.reply.body.value == FoodLog(db.logs.nextId, userId,
           ToInteger(body.savedFoodId, casts).value, ToNumeric(body.consumedAmount, casts).value,
           ToText(body.mealType, casts).value, castDate(body.date).value, now)
  {
    if MissingField(body) then Outcome(db, Reply(400, Message(FieldsMissing)))
    else if !Converts(body, casts, castDate) then Outcome(db, Reply(500, Message(CreateLogFailed)))
    else
      var data := FoodLogStore.NewLog(ToInteger(body.savedFoodId, casts).value, ToNumeric(body.consumedAmount, casts).value,
        ToText(body.mealType, casts).value, castDate(body.date).value);
      var created := FoodLogStore.CreateFoodLog(db.logs, userId, data, now);
      Outcome(db.(logs := created.table), Reply(201, Payload(created.returned)))
  }

  /** A body whose values already have the columns' types, a whole-number
      food id within the range of `integer`, a number amount and a meal type
      given as text, is stored
      exactly as sent, for the caller, with the date the GET handlers would
      read it under. */
  lemma TypedBodyStoredAsGiven(db: Db, userId: UserId, foodId: int, amount: real, meal: string, date: Value,
                               casts: Casts, castDate: Value -> Option<Day>, now: int)
    requires foodId != 0 && IsInt4(foodId) && amount != 0.0 && meal != "" && !Falsy(date) && castDate(date).Some?
    ensures var o := HandleCreateLog(db, userId, LogBody(Num(foodId as real), Num(amount), Text(meal), date), casts, castDate, now);
      && o.reply.status == 201
      && var l := o.reply.body.value;
      && l.userId == userId && l.savedFoodId == foodId && l.consumedAmount == amount
      && l.mealType == meal && l.date == castDate(date).value && l.createdAt == now
      && l in o.db.logs.rows
  {
  }

  /** A whole-number food id outside the range of `integer`, such as
      3000000000, fails the insert: the reply is 500 and nothing is stored. */
  lemma FoodIdOutOfRangeFails(db: Db, userId: UserId, foodId: int, body: LogBody,
                              casts: Casts, castDate: Value -> Option<Day>, now: int)
    requires body.savedFoodId == Num(foodId as real) && !IsInt4(foodId) && !MissingField(body)
    ensures HandleCreateLog(db, userId, body, casts, castDate, now) == Outcome(db, Reply(500, Message(CreateLogFailed)))
  {
  }

  /** Booleans are judged by JavaScript truthiness: `false` in any field is
      a missing field (400), while `true` as the meal type passes the check
      and is stored as the text "true". */
  lemma BooleanFields(db: Db, userId: UserId, body: LogBody, casts: Casts, castDate: Value -> Option<Day>, now: int)
    ensures body.mealType == Bool(false) ==>
      HandleCreateLog(db, userId, body, casts, castDate, now) == Outcome(db, Reply(400, Message(FieldsMissing)))
    ensures body.mealType == Bool(true) && HandleCreateLog(db, userId, body, casts, castDate, now).reply.status == 201 ==>
      HandleCreateLog(db, userId, body, casts, castDate, now).reply.body.value.mealType == "true"
  {
  }

  /** A created log whose food exists is among the rows the logs endpoint
      lists for its date, joined with that food. */
  lemma CreatedLogListed(db: Db, userId: UserId, body: LogBody, casts: Casts, castDate: Value -> Option<Day>, now: int)
    requires HandleCreateLog(db, userId, body, casts, castDate, now).reply.status == 201
    requires FoodLogStore.FoodOf(db.foods.rows, HandleCreateLog(db, userId, body, casts, castDate, now).reply.body.value).Some?
    ensures var o := HandleCreateLog(db, userId, body, casts, castDate, now);
      var l := o.reply.body.value;
      LogRow(l, FoodLogStore.FoodOf(db.foods.rows, l).value) in DayRows(o.db, userId, l.date)
  {
    var o := HandleCreateLog(db, userId, body, casts, castDate, now);
    var l := o.reply.body.value;
    var rows := o.db.logs.rows;
    assert rows[|rows| - 1] == l;
  }

  /** `handleGetLogsByDate`. A falsy date is rejected with 400 before the
      lookup. A date Postgres cannot cast fails the query (500). Otherwise
      the day's rows are sent with 200, each enriched with its calculated
      macros. Nothing is written. */
  function HandleGetLogsByDate(db: Db, userId: UserId, date: Value, castDate: Value -> Option<Day>): (r: Reply<seq<Enriched>>)
    requires DayHasBases(db, userId, date, castDate)
    ensures Falsy(date) ==> r == Reply(400, Message(DateRequired))
    ensures !Falsy(date) && castDate(date).None? ==> r == Reply(500, Message(FetchLogFailed))
    ensures !Falsy(date) && castDate(date).Some? ==>
      var rows := DayRows(db, userId, castDate(date).value);
      && r.status == 200 && r.body.Payload? && |r.body.value| == |rows|
      && forall i :: 0 <= i < |rows| ==>
        r.body.value[i].row == rows[i] && MacrosRoundTo(r.body.value[i].calculated, Scaled(rows[i]))
  {
    if Falsy(date) then Reply(400, Message(DateRequired))
    else match castDate(date)
      case None => Reply(500, Message(FetchLogFailed))
      case Some(day) => Reply(200, Payload(EnrichAll(DayRows(db, userId, day))))
  }

  /** none of the four goal fields is null or absent */
  predicate AllPresent(req: GoalRequest) {
    req.caloriesGoal.Some? && req.proteinPercent.Some? && req.carbPercent.Some? && req.fatPercent.Some?
  }

  /** the three percentages added up */
  function PercentTotal(req: GoalRequest): real
    requires AllPresent(req)
  {
    req.proteinPercent.value + req.carbPercent.value + req.fatPercent.value
  }

  /** `handleSetGoal`. A null or absent field is rejected first (0 is not
      missing), then a split that does not add up to 100; neither stores
      anything. Otherwise the four values are upserted as given (the calories
      are not range-checked) and the stored row is sent with 200. */
  function HandleSetGoal(db: Db, userId: UserId, req: GoalRequest): (o: Outcome<Goal>)
    ensures !AllPresent(req) ==> o == Outcome(db, Reply(400, Message(GoalFieldsRequired)))
    ensures o.reply.status == 200 <==> AllPresent(req) && PercentTotal(req) == 100.0
    ensures AllPresent(req) && PercentTotal(req) != 100.0 ==> o == Outcome(db, Reply(400, Message(PercentagesNot100)))
    ensures o.reply.status != 200 ==> o.db == db && o.reply.status == 400
    ensures o.reply.status == 200 ==>
      var g := Goal(req.caloriesGoal.value, req.proteinPercent.value, req.carbPercent.value, req.fatPercent.value);
      o.reply.body == Payload(g) && o.db == db.(goals := GoalStore.Upsert(db.goals, userId, g).table)
  {
    if req.caloriesGoal.None? || req.proteinPercent.None? || req.carbPercent.None? || req.fatPercent.None? then
      Outcome(db, Reply(400, Message(GoalFieldsRequired)))
    else if req.proteinPercent.value + req.carbPercent.value + req.fatPercent.value != 100.0 then
      Outcome(db, Reply(400, Message(PercentagesNot100)))
    else
      var g := Goal(req.caloriesGoal.value, req.proteinPercent.value, req.carbPercent.value, req.fatPercent.value);
      var saved := GoalStore.Upsert(db.goals, userId, g);
      Outcome(db.(goals := saved.table), Reply(200, Payload(saved.returned)))
  }

  /** The response `handleGetGoal` gives for what the store returned: 404 when
      there is no goal, the goal with 200 otherwise. */
  function GoalReply(found: Option<Goal>): (r: Reply<Goal>)
    ensures r.status == 404 <==> found.None?
    ensures found.Some? ==> r == Reply(200, Payload(found.value))
    ensures found.None? ==> r.body == Message(GoalNotFound)
  {
    match found
    case None => Reply(404, Message(GoalNotFound))
    case Some(g) => Reply(200, Payload(g))
  }

  /** `handleGetGoal`: the user's goal, inserting the default for a user who
      has none. */
  function HandleGetGoal(db: Db, userId: UserId): (o: Outcome<Goal>)
    ensures o.db == db.(goals := GoalStore.GetOrInsert(db.goals, userId).table)
    ensures userId in o.db.goals && o.reply.body == Payload(o.db.goals[userId])
  {
    var goal := GoalStore.GetOrInsert(db.goals, userId);
    Outcome(db.(goals := goal.table), GoalReply(Some(goal.returned)))
  }

  /** Since the store inserts a default for a user without a goal, the 404
      branch of `handleGetGoal` is never taken. */
  lemma GetGoalNever404(db: Db, userId: UserId)
    ensures HandleGetGoal(db, userId).reply.status == 200
  {
  }

  /** Likewise a summary that is sent never reports `goals: null`: it
      carries the targets of the user's goal, which is the default for a user
      who never set one. */
  lemma SummaryGoalsFromStore(db: Db, userId: UserId, date: Value, castDate: Value -> Option<Day>)
    requires !Falsy(date) && castDate(date).Some?
    requires DayHasBases(db, userId, date, castDate)
    requires NoInheritedMealType(DayRows(db, userId, castDate(date).value))
    ensures var o := HandleGetSummary(db, userId, date, castDate);
      o.reply.body.Payload? && o.reply.body.value.goals == Some(Targets(o.db.goals[userId]))
    ensures userId !in db.goals ==>
      HandleGetSummary(db, userId, date, castDate).reply.body.value.goals == Some(Targets(GoalStore.DefaultGoal))
  {
  }

  /** A goal accepted by `handleSetGoal` is what the next `handleGetGoal`
      returns, and what the next summary's gram targets are computed from. */
  lemma SetGoalThenRead(db: Db, userId: UserId, req: GoalRequest, date: Value, castDate: Value -> Option<Day>)
    requires HandleSetGoal(db, userId, req).reply.status == 200
    requires !Falsy(date) && castDate(date).Some?
    requires DayHasBases(db, userId, date, castDate)
    requires NoInheritedMealType(DayRows(db, userId, castDate(date).value))
    ensures var saved := HandleSetGoal(db, userId, req);
      var g := Goal(req.caloriesGoal.value, req.proteinPercent.value, req.carbPercent.value, req.fatPercent.value);
      && HandleGetGoal(saved.db, userId).reply == Reply(200, Payload(g))
      && HandleGetSummary(saved.db, userId, date, castDate).reply.body.value.goals == Some(Targets(g))
  {
    var saved := HandleSetGoal(db, userId, req);
    assert DayRows(saved.db, userId, castDate(date).value) == DayRows(db, userId, castDate(date).value);
  }

  /** The calories are not range-checked: a goal of 0 or fewer calories with a
      100 % split is stored. */
  lemma AnyCaloriesAccepted(db: Db, userId: UserId, calories: real)
    ensures HandleSetGoal(db, userId, GoalRequest(Some(calories), Some(30.0), Some(40.0), Some(30.0))).reply.status == 200
  {
  }

  /** The logs endpoint and the summary agree on every log: the summary's
      buckets hold exactly the endpoint's entries for their meal type, in the
      endpoint's order, and its totals are the rounded sum of the endpoint's
      calculated values. */
  lemma LogsAgreeWithSummary(db: Db, userId: UserId, date: Value, castDate: Value -> Option<Day>, k: string)
    requires !Falsy(date) && castDate(date).Some?
    requires DayHasBases(db, userId, date, castDate)
    requires NoInheritedMealType(DayRows(db, userId, castDate(date).value))
    requires IsMealType(k)
    ensures var logs := HandleGetLogsByDate(db, userId, date, castDate).body.value;
      var s := HandleGetSummary(db, userId, date, castDate).reply.body.value;
      && Bucket(s.byMeal, k) == MealEntries(logs, k)
      && MacrosRoundTo(s.totals, SumCalculated(logs))
  {
  }
}

=== FILE: food_log_store.dfy ===
/** The food_logs table and the statements run against it: the insert, the
    per-day listing joined with saved_foods and ordered by meal type and
    creation time, the user-scoped update and delete, and the seven-day
    aggregate. The helpers for user-scoped statements (`Addressed`,
    `NotAddressed`, `OwnedBy`, `FindAddressed`, `UpdateRows`, `DifferentIds`)
    mirror those of `SavedFoodStore` on purpose: both tables are addressed by
    `WHERE id = $1 AND user_id = $2`, over different row types. */
module FoodLogStore {
  import opened Wrappers
  import opened Records
  import opened Sequences
  import opened Text
  import opened Scaling
  import SavedFoodStore

  /** The rows in insertion order and the next value of the id sequence. */
  datatype LogTable = LogTable(rows: seq<FoodLog>, nextId: nat)

  /** Ids are distinct and below the next id. */
  predicate Valid(t: LogTable) {
    && (forall i :: 0 <= i < |t.rows| ==> t.rows[i].id < t.nextId)
    && (forall i, j :: 0 <= i < j < |t.rows| ==> t.rows[i].id != t.rows[j].id)
  }

  /** The four columns a log is created from. */
  datatype NewLog = NewLog(savedFoodId: int, consumedAmount: real, mealType: string, date: Day)

  /** The three columns an update overwrites. */
  datatype LogChange = LogChange(consumedAmount: real, mealType: string, date: Day)

  /** `createFoodLog`: inserts one row for the user holding the four given
      columns, with a fresh id and the current time, and returns it. */
  function CreateFoodLog(t: LogTable, userId: UserId, data: NewLog, now: int): (r: Stored<LogTable, FoodLog>)
    ensures r.returned.userId == userId && r.returned.createdAt == now
    ensures r.returned.savedFoodId == data.savedFoodId && r.returned.consumedAmount == data.consumedAmount
    ensures r.returned.mealType == data.mealType && r.returned.date == data.date
    ensures r.table.rows == t.rows + [r.returned]
    ensures Valid(t) ==> Valid(r.table) && forall i :: 0 <= i < |t.rows| ==> t.rows[i].id != r.returned.id
  {
    var row := FoodLog(t.nextId, userId, data.savedFoodId, data.consumedAmount, data.mealType, data.date, now);
    Stored(LogTable(t.rows + [row], t.nextId + 1), row)
  }

  // ---------------------------------------------------------------------------
  // The join with saved_foods

  /** The saved food a log refers to, found by id alone: the join does not
      look at who owns the food. */
  function FoodOf(foods: seq<SavedFood>, log: FoodLog): Option<FoodData> {
    match SavedFoodStore.FindFood(foods, log.savedFoodId)
    case None => None
    case Some(k) => Some(foods[k].data)
  }

  /** `FROM food_logs fl JOIN saved_foods sf ON fl.saved_food_id = sf.id
      WHERE keep(fl)`: the kept logs that have a food, each paired with it,
      in table order. A log whose food is gone is dropped. */
  function Join(logs: seq<FoodLog>, foods: seq<SavedFood>, keep: FoodLog -> bool): (r: seq<LogRow>)
    ensures |r| <= |logs|
    ensures LogsOf(r) == Filter(logs, Joinable(foods, keep))
    ensures forall i :: 0 <= i < |r| ==> r[i].log in logs && keep(r[i].log) && FoodOf(foods, r[i].log) == Some(r[i].food)
    ensures forall i :: 0 <= i < |logs| && keep(logs[i]) && FoodOf(foods, logs[i]).Some? ==>
      LogRow(logs[i], FoodOf(foods, logs[i]).value) in r
  {
    if |logs| == 0 then []
    else
      var rest := Join(logs[1..], foods, keep);
      match FoodOf(foods, logs[0])
      case Some(f) => if keep(logs[0]) then [LogRow(logs[0], f)] + rest else rest
      case None => rest
  }

  /** the log columns of joined rows, in their order */
  function LogsOf(rows: seq<LogRow>): seq<FoodLog> {
    if |rows| == 0 then [] else [rows[0].log] + LogsOf(rows[1..])
  }

  /** the log is kept and its food exists */
  function Joinable(foods: seq<SavedFood>, keep: FoodLog -> bool): FoodLog -> bool {
    (l: FoodLog) => keep(l) && FoodOf(foods, l).Some?
  }

  /** `WHERE fl.user_id = $1 AND fl.date = $2` */
  function OnDay(userId: UserId, day: Day): FoodLog -> bool {
    (l: FoodLog) => l.userId == userId && l.date == day
  }

  // ---------------------------------------------------------------------------
  // ORDER BY fl.meal_type, fl.created_at

  /** a may come before b: a smaller meal type, or the same meal type created
      no later */
  predicate RowLe(a: LogRow, b: LogRow) {
    || StrLt(a.log.mealType, b.log.mealType)
    || (a.log.mealType == b.log.mealType && a.log.createdAt <= b.log.createdAt)
  }

  lemma RowLeTotal(a: LogRow, b: LogRow)
    ensures RowLe(a, b) || RowLe(b, a)
  {
    if a.log.mealType != b.log.mealType {
      StrLtTotal(a.log.mealType, b.log.mealType);
    }
  }

  lemma RowLeTransitive(a: LogRow, b: LogRow, c: LogRow)
    requires RowLe(a, b) && RowLe(b, c)
    ensures RowLe(a, c)
  {
    if StrLt(a.log.mealType, b.log.mealType) && StrLt(b.log.mealType, c.log.mealType) {
      StrLtTransitive(a.log.mealType, b.log.mealType, c.log.mealType);
    }
  }

  /** each row may come before the next */
  predicate Sorted(s: seq<LogRow>) {
    forall i :: 0 < i < |s| ==> RowLe(s[i - 1], s[i])
  }

  /** x placed into sorted s, before the first row it may precede */
  function Insert(x: LogRow, s: seq<LogRow>): (r: seq<LogRow>)
    requires Sorted(s)
    ensures Sorted(r)
    ensures multiset(r) == multiset(s) + multiset{x}
    ensures |r| == |s| + 1
    ensures r[0] == x || (|s| > 0 && r[0] == s[0])
  {
    if |s| == 0 then [x]
    else if RowLe(x, s[0]) then [x] + s
    else
      RowLeTotal(x, s[0]);
      var rest := Insert(x, s[1..]);
      assert s == [s[0]] + s[1..];
      [s[0]] + rest
  }

  /** The rows in ORDER BY meal_type, created_at order: a sorted permutation.
      SQL leaves the order of rows with equal keys open; this is the stable
      choice. */
  function SortRows(s: seq<LogRow>): (r: seq<LogRow>)
    ensures Sorted(r)
    ensures multiset(r) == multiset(s)
    ensures |r| == |s|
  {
    if |s| == 0 then []
    else
      assert s == [s[0]] + s[1..];
      Insert(s[0], SortRows(s[1..]))
  }

  /** Sorting neighbour by neighbour orders every pair. */
  lemma {:induction false} SortedPairwise(s: seq<LogRow>)
    requires Sorted(s)
    ensures Pairwise(s, RowLe)
  {
    if |s| > 1 {
      SortedPairwise(s[1..]);
      forall j | 1 < j < |s|
        ensures RowLe(s[0], s[j])
      {
        assert RowLe(s[1], s[j]) by {
          assert s[1..][0] == s[1] && s[1..][j - 1] == s[j];
        }
        RowLeTransitive(s[0], s[1], s[j]);
      }
    }
  }

  /** `getFoodLogsByDate`: the user's logs on the day that have a food, each
      joined with its saved food's columns, ordered by meal type and then
      creation time. */
  function GetFoodLogsByDate(t: LogTable, foods: seq<SavedFood>, userId: UserId, day: Day): (r: seq<LogRow>)
    ensures forall i :: 0 <= i < |r| ==>
      && r[i].log in t.rows && r[i].log.userId == userId && r[i].log.date == day
      && FoodOf(foods, r[i].log) == Some(r[i].food)
    ensures forall i ::
      (0 <= i < |t.rows| && t.rows[i].userId == userId && t.rows[i].date == day && FoodOf(foods, t.rows[i]).Some?) ==>
      LogRow(t.rows[i], FoodOf(foods, t.rows[i]).value) in r
    ensures multiset(r) == multiset(Join(t.rows, foods, OnDay(userId, day)))
    ensures Pairwise(r, RowLe)
  {
    var joined := Join(t.rows, foods, OnDay(userId, day));
    var r := SortRows(joined);
    SortedPairwise(r);
    SameMembers(r, joined);
    r
  }

  /** Two lists that are permutations of each other have the same members. */
  lemma SameMembers(a: seq<LogRow>, b: seq<LogRow>)
    requires multiset(a) == multiset(b)
    ensures forall i :: 0 <= i < |a| ==> a[i] in b
    ensures forall i :: 0 <= i < |b| ==> b[i] in a
  {
    assert forall i :: 0 <= i < |a| ==> a[i] in multiset(b);
    assert forall i :: 0 <= i < |b| ==> b[i] in multiset(a);
  }

  // ---------------------------------------------------------------------------
  // UPDATE and DELETE ... WHERE id = $ AND user_id = $

  /** the row is the one addressed by (logId, userId) */
  predicate Addressed(l: FoodLog, logId: int, userId: UserId) {
    l.id == logId && l.userId == userId
  }

  function NotAddressed(logId: int, userId: UserId): FoodLog -> bool {
    (l: FoodLog) => !Addressed(l, logId, userId)
  }

  function OwnedBy(userId: UserId): FoodLog -> bool {
    (l: FoodLog) => l.userId == userId
  }

  /** The user's rows, in table order. */
  function Owned(rows: seq<FoodLog>, userId: UserId): seq<FoodLog> {
    Filter(rows, OwnedBy(userId))
  }

  /** The log with the three updatable columns replaced. */
  function Apply(l: FoodLog, c: LogChange): FoodLog {
    l.(consumedAmount := c.consumedAmount, mealType := c.mealType, date := c.date)
  }

  /** The position of the first row addressed by (logId, userId), if any. */
  function FindAddressed(rows: seq<FoodLog>, logId: int, userId: UserId): (r: Option<nat>)
    ensures r.Some? ==> r.value < |rows| && Addressed(rows[r.value], logId, userId)
    ensures r.None? <==> forall j :: 0 <= j < |rows| ==> !Addressed(rows[j], logId, userId)
  {
    if |rows| == 0 then None
    else if Addressed(rows[0], logId, userId) then Some(0)
    else match FindAddressed(rows[1..], logId, userId)
      case None => None
      case Some(k) => Some(k + 1)
  }

  function UpdateRows(rows: seq<FoodLog>, logId: int, userId: UserId, c: LogChange): (r: seq<FoodLog>)
    ensures |r| == |rows|
    ensures forall i :: 0 <= i < |rows| ==>
      r[i] == if Addressed(rows[i], logId, userId) then Apply(rows[i], c) else rows[i]
  {
    seq(|rows|, i requires 0 <= i < |rows| =>
      if Addressed(rows[i], logId, userId) then Apply(rows[i], c) else rows[i])
  }

  /** `updateFoodLog`: sets the amount, meal type and date of the row whose
      id and user_id both match, keeps its other columns, and returns it;
      when none matches, returns nothing and the table is as it was. */
  function UpdateFoodLog(t: LogTable, logId: int, userId: UserId, c: LogChange): (r: Stored<LogTable, Option<FoodLog>>)
    ensures r.returned.None? <==> forall j :: 0 <= j < |t.rows| ==> !Addressed(t.rows[j], logId, userId)
    ensures r.returned.None? ==> r.table == t
    ensures r.returned.Some? ==> Addressed(r.returned.value, logId, userId) && r.returned.value in r.table.rows
    ensures r.returned.Some? ==> var l := r.returned.value;
      l.consumedAmount == c.consumedAmount && l.mealType == c.mealType && l.date == c.date
    ensures r.table.nextId == t.nextId && |r.table.rows| == |t.rows|
    ensures forall i :: 0 <= i < |t.rows| && !Addressed(t.rows[i], logId, userId) ==> r.table.rows[i] == t.rows[i]
    ensures forall i :: 0 <= i < |t.rows| && Addressed(t.rows[i], logId, userId) ==>
      var l := r.table.rows[i];
      && l.id == t.rows[i].id && l.userId == t.rows[i].userId
      && l.savedFoodId == t.rows[i].savedFoodId && l.createdAt == t.rows[i].createdAt
      && l.consumedAmount == c.consumedAmount && l.mealType == c.mealType && l.date == c.date
  {
    match FindAddressed(t.rows, logId, userId)
    case None =>
      assert UpdateRows(t.rows, logId, userId, c) == t.rows;
      Stored(t, None)
    case Some(k) =>
      var rows := UpdateRows(t.rows, logId, userId, c);
      Stored(LogTable(rows, t.nextId), Some(rows[k]))
  }

  /** `deletedFoodLog`: removes the row whose id and user_id both match and
      returns it; when none matches, returns nothing and the table is as it
      was. */
  function DeleteFoodLog(t: LogTable, logId: int, userId: UserId): (r: Stored<LogTable, Option<FoodLog>>)
    ensures r.returned.None? <==> forall j :: 0 <= j < |t.rows| ==> !Addressed(t.rows[j], logId, userId)
    ensures r.returned.None? ==> r.table == t
    ensures r.returned.Some? ==> Addressed(r.returned.value, logId, userId) && r.returned.value in t.rows
    ensures forall i :: 0 <= i < |r.table.rows| ==> !Addressed(r.table.rows[i], logId, userId)
    ensures forall i :: 0 <= i < |t.rows| && !Addressed(t.rows[i], logId, userId) ==> t.rows[i] in r.table.rows
    ensures Sublist(r.table.rows, t.rows)
    ensures r.table.nextId == t.nextId
  {
    var rows := Filter(t.rows, NotAddressed(logId, userId));
    FilterIsSublist(t.rows, NotAddressed(logId, userId));
    match FindAddressed(t.rows, logId, userId)
    case None =>
      FilterAll(t.rows, NotAddressed(logId, userId));
      Stored(t, None)
    case Some(k) =>
      Stored(LogTable(rows, t.nextId), Some(t.rows[k]))
  }

  /** With distinct ids a delete removes exactly the row it returns, and
      update and delete keep the table valid. */
  lemma DeleteRemovesOne(t: LogTable, logId: int, userId: UserId, c: LogChange)
    requires Valid(t)
    ensures Valid(UpdateFoodLog(t, logId, userId, c).table)
    ensures Valid(DeleteFoodLog(t, logId, userId).table)
    ensures var r := DeleteFoodLog(t, logId, userId);
      r.returned.Some? ==> multiset(t.rows) == multiset(r.table.rows) + multiset{r.returned.value}
  {
    UpdateKeepsValid(t, logId, userId, c);
    DeleteKeepsValid(t, logId, userId);
    DeleteDropsReturned(t, logId, userId);
  }

  /** An update keeps every id and the id sequence. */
  lemma UpdateKeepsValid(t: LogTable, logId: int, userId: UserId, c: LogChange)
    requires Valid(t)
    ensures Valid(UpdateFoodLog(t, logId, userId, c).table)
  {
  }

  /** A delete keeps a sublist, so ids stay distinct and below the next id. */
  lemma DeleteKeepsValid(t: LogTable, logId: int, userId: UserId)
    requires Valid(t)
    ensures Valid(DeleteFoodLog(t, logId, userId).table)
  {
    assert Pairwise(t.rows, DifferentIds);
    FilterPairwise(t.rows, NotAddressed(logId, userId), DifferentIds);
  }

  /** With distinct ids only the returned row is addressed, so it is the one
      row dropped. */
  lemma DeleteDropsReturned(t: LogTable, logId: int, userId: UserId)
    requires Valid(t)
    ensures var r := DeleteFoodLog(t, logId, userId);
      r.returned.Some? ==> multiset(t.rows) == multiset(r.table.rows) + multiset{r.returned.value}
  {
    var r := DeleteFoodLog(t, logId, userId);
    var p := NotAddressed(logId, userId);
    if r.returned.Some? {
      var k := FindAddressed(t.rows, logId, userId).value;
      assert forall j :: 0 <= j < |t.rows| && j != k ==> p(t.rows[j]);
      FilterDropsOne(t.rows, p, k);
    }
  }

  function DifferentIds(a: FoodLog, b: FoodLog): bool {
    a.id != b.id
  }

  /** Nothing user a does touches user b's logs: b's rows, in order, are the
      same after a creates, updates or deletes a log. */
  lemma {:induction false} OtherUsersUntouched(t: LogTable, a: UserId, b: UserId, logId: int, data: NewLog, c: LogChange, now: int)
    requires a != b
    ensures Owned(CreateFoodLog(t, a, data, now).table.rows, b) == Owned(t.rows, b)
    ensures Owned(UpdateFoodLog(t, logId, a, c).table.rows, b) == Owned(t.rows, b)
    ensures Owned(DeleteFoodLog(t, logId, a).table.rows, b) == Owned(t.rows, b)
  {
    var row := CreateFoodLog(t, a, data, now).returned;
    FilterAppend(t.rows, [row], OwnedBy(b));
    assert Filter([row], OwnedBy(b)) == [] by {
      assert [row][1..] == [];
    }
    FilterAgree(UpdateFoodLog(t, logId, a, c).table.rows, t.rows, OwnedBy(b));
    if DeleteFoodLog(t, logId, a).returned.Some? {
      FilterFilter(t.rows, NotAddressed(logId, a), OwnedBy(b));
    }
  }

  // ---------------------------------------------------------------------------
  // The seven-day aggregate

  /** `WHERE fl.user_id = $1 AND fl.date >= CURRENT_DATE - INTERVAL '6 days'`:
      a lower bound on the date and no upper bound. */
  function InWindow(userId: UserId, today: Day): FoodLog -> bool {
    (l: FoodLog) => l.userId == userId && l.date >= today - 6
  }

  /** The joined rows the aggregate groups. */
  function WindowRows(t: LogTable, foods: seq<SavedFood>, userId: UserId, today: Day): seq<LogRow> {
    Join(t.rows, foods, InWindow(userId, today))
  }

  /** One row of the aggregate: a date and the unrounded sums of the scaled
      macros of that date's logs. */
  datatype WeekRow = WeekRow(date: Day, totals: Macros)

  /** some row is dated d */
  predicate HasDate(rows: seq<LogRow>, d: Day)
    decreases |rows|
  {
    |rows| > 0 && (rows[0].log.date == d || HasDate(rows[1..], d))
  }

  lemma {:induction false} HasDateOfMember(rows: seq<LogRow>, x: LogRow)
    requires x in rows
    ensures HasDate(rows, x.log.date)
  {
    if rows[0] != x {
      HasDateOfMember(rows[1..], x);
    }
  }

  lemma {:induction false} HasDateBounded(rows: seq<LogRow>, d: Day, low: Day)
    requires forall i :: 0 <= i < |rows| ==> rows[i].log.date >= low
    requires HasDate(rows, d)
    ensures d >= low
  {
    if rows[0].log.date != d {
      HasDateBounded(rows[1..], d, low);
    }
  }

  /** strictly increasing */
  predicate Ascending(ds: seq<Day>) {
    forall i, j :: 0 <= i < j < |ds| ==> ds[i] < ds[j]
  }

  /** d added to an ascending list of distinct dates, unless already there */
  function InsertDay(d: Day, ds: seq<Day>): (r: seq<Day>)
    requires Ascending(ds)
    ensures Ascending(r)
    ensures forall x :: x in r <==> x == d || x in ds
  {
    if |ds| == 0 then [d]
    else if d < ds[0] then
      AscendingCons(d, ds);
      [d] + ds
    else if d == ds[0] then ds
    else
      var rest := InsertDay(d, ds[1..]);
      assert forall i :: 0 <= i < |rest| ==> ds[0] < rest[i] by {
        forall i | 0 <= i < |rest|
          ensures ds[0] < rest[i]
        {
          assert rest[i] in rest;
          if rest[i] != d {
            var j :| 0 <= j < |ds[1..]| && ds[1..][j] == rest[i];
            assert ds[j + 1] == rest[i];
          }
        }
      }
      AscendingCons(ds[0], rest);
      [ds[0]] + rest
  }

  /** A day below every day of an ascending list can head it. */
  lemma AscendingCons(d: Day, ds: seq<Day>)
    requires Ascending(ds)
    requires forall i :: 0 <= i < |ds| ==> d < ds[i]
    ensures Ascending([d] + ds)
  {
    var r := [d] + ds;
    forall i, j | 0 <= i < j < |r|
      ensures r[i] < r[j]
    {
      assert r[j] == ds[j - 1];
      if i > 0 {
        assert r[i] == ds[i - 1];
      }
    }
  }

  /** `GROUP BY fl.date ORDER BY fl.date ASC`: each date of the rows once,
      ascending. */
  function Dates(rows: seq<LogRow>): (ds: seq<Day>)
    ensures Ascending(ds)
    ensures forall d :: d in ds <==> HasDate(rows, d)
  {
    if |rows| == 0 then [] else InsertDay(rows[0].log.date, Dates(rows[1..]))
  }

  function OnDate(d: Day): LogRow -> bool {
    (row: LogRow) => row.log.date == d
  }

  /** The exact sums of the scaled macros of the rows dated d:
      `SUM((fl.consumed_amount / sf.base_amount) * sf.m)` over the group. */
  function DaySum(rows: seq<LogRow>, d: Day): Macros
    requires AllHaveBase(rows)
  {
    var group := Filter(rows, OnDate(d));
    assert AllHaveBase(group);
    ExactSum(group)
  }

  function DatesOf(w: seq<WeekRow>): (ds: seq<Day>)
    ensures |ds| == |w| && forall i :: 0 <= i < |w| ==> ds[i] == w[i].date
  {
    seq(|w|, i requires 0 <= i < |w| => w[i].date)
  }

  /** `get7DayMacrosByUserId`: one row per date on or after today - 6 on which
      the user logged a food, ascending, with that date's exact sums. A date
      without logs has no row, and dates after today are included. A food with
      base amount 0 makes the division fail and the query report an error
      (None). */
  function Get7DayMacros(t: LogTable, foods: seq<SavedFood>, userId: UserId, today: Day): (r: Option<seq<WeekRow>>)
    ensures r.None? <==> !AllHaveBase(WindowRows(t, foods, userId, today))
    ensures r.Some? ==> Ascending(DatesOf(r.value))
    ensures r.Some? ==> forall d :: d in DatesOf(r.value) <==> HasDate(WindowRows(t, foods, userId, today), d)
    ensures r.Some? ==> forall i :: 0 <= i < |r.value| ==> r.value[i].date >= today - 6
    ensures r.Some? ==> forall i :: 0 <= i < |r.value| ==>
      r.value[i].totals == DaySum(WindowRows(t, foods, userId, today), r.value[i].date)
  {
    var q := WindowRows(t, foods, userId, today);
    if !AllHaveBase(q) then None
    else
      var ds := Dates(q);
      var w := WeekRows(q, ds);
      assert forall i :: 0 <= i < |w| ==> w[i].date >= today - 6 by {
        assert forall i :: 0 <= i < |q| ==> q[i].log.date >= today - 6 by {
          assert forall i :: 0 <= i < |q| ==> InWindow(userId, today)(q[i].log);
        }
        WindowDatesBounded(q, ds, today - 6);
        assert forall i :: 0 <= i < |w| ==> w[i].date == ds[i];
      }
      Some(w)
  }

  /** One aggregate row per date of ds, with the exact sums of q's rows of
      that date. */
  function WeekRows(q: seq<LogRow>, ds: seq<Day>): (w: seq<WeekRow>)
    requires AllHaveBase(q)
    ensures DatesOf(w) == ds
    ensures forall i :: 0 <= i < |w| ==> w[i].date == ds[i] && w[i].totals == DaySum(q, ds[i])
  {
    seq(|ds|, i requires 0 <= i < |ds| && AllHaveBase(q) => WeekRow(ds[i], DaySum(q, ds[i])))
  }

  /** Every grouped date of the window is on or after today - 6. */
  lemma WindowDatesBounded(q: seq<LogRow>, ds: seq<Day>, low: Day)
    requires forall i :: 0 <= i < |q| ==> q[i].log.date >= low
    requires forall d :: d in ds ==> HasDate(q, d)
    ensures forall i :: 0 <= i < |ds| ==> ds[i] >= low
  {
    forall i | 0 <= i < |ds|
      ensures ds[i] >= low
    {
      assert ds[i] in ds;
      HasDateBounded(q, ds[i], low);
    }
  }

  /** Every date on or after today - 6 on which the user logged a food with a
      saved food has a row, however far in the future it lies. */
  lemma WindowDateListed(t: LogTable, foods: seq<SavedFood>, userId: UserId, today: Day, log: FoodLog)
    requires log in t.rows && log.userId == userId && log.date >= today - 6
    requires FoodOf(foods, log).Some?
    requires Get7DayMacros(t, foods, userId, today).Some?
    ensures log.date in DatesOf(Get7DayMacros(t, foods, userId, today).value)
  {
    var q := WindowRows(t, foods, userId, today);
    HasDateOfMember(q, LogRow(log, FoodOf(foods, log).value));
  }
}

=== FILE: goal_page.dfy ===
/** The logic of the goal page: editing one input of the goal form, and the
    submit handler that checks the percentage split before posting. The
    fetch on load, messages shown and the request itself are not modelled; a
    post is represented by the body it sends. */
module GoalPage {
  import opened Wrappers
  import opened Records

  /** The four inputs of the goal form, each holding the text typed in. */
  datatype GoalForm = GoalForm(calories: string, protein: string, carbs: string, fats: string)

  /** The form's inputs, named `calories_goal`, `protein_percent`,
      `carb_percent` and `fat_percent` on the page. */
  datatype GoalField = CaloriesGoal | ProteinPercent | CarbPercent | FatPercent

  /** the text typed into an input */
  function Field(form: GoalForm, f: GoalField): string {
    match f
    case CaloriesGoal => form.calories
    case ProteinPercent => form.protein
    case CarbPercent => form.carbs
    case FatPercent => form.fats
  }

  /** `handleChange`: the input that changed takes the typed value; the other
      three are copied from the previous state. */
  function HandleChange(form: GoalForm, f: GoalField, value: string): (r: GoalForm)
    ensures Field(r, f) == value
    ensures forall g :: g != f ==> Field(r, g) == Field(form, g)
  {
    match f
    case CaloriesGoal => form.(calories := value)
    case ProteinPercent => form.(protein := value)
    case CarbPercent => form.(carbs := value)
    case FatPercent => form.(fats := value)
  }

  /** Edits to different inputs commute. */
  lemma ChangesCommute(form: GoalForm, f: GoalField, v: string, g: GoalField, w: string)
    requires f != g
    ensures HandleChange(HandleChange(form, f, v), g, w) == HandleChange(HandleChange(form, g, w), f, v)
  {
  }

  /** Of two edits to the same input, the later one wins. */
  lemma LastChangeWins(form: GoalForm, f: GoalField, v: string, w: string)
    ensures HandleChange(HandleChange(form, f, v), f, w) == HandleChange(form, f, w)
  {
  }

  const TotalNot100 := "\U{26A0}\U{FE0F} Macronutrient percentages must total 100%"

  /** What submitting does: shows a message without sending anything, or
      posts a goal body. */
  datatype Submission = Refused(message: string) | Sent(payload: GoalRequest)

  /** the page's check: the three percentages, converted with `Number`, are
      numbers that sum to exactly 100 (a NaN sum is not 100) */
  predicate SplitIs100(form: GoalForm, toNumber: string -> Option<real>) {
    && toNumber(form.protein).Some?
    && toNumber(form.carbs).Some?
    && toNumber(form.fats).Some?
    && toNumber(form.protein).value + toNumber(form.carbs).value + toNumber(form.fats).value == 100.0
  }

  /** `handleSubmit`. `toNumber` is JavaScript's `Number` on the typed text,
      None standing for NaN, which the request body carries as null. Only the
      split is checked: the calories are posted whatever they convert to. */
  function HandleSubmit(form: GoalForm, toNumber: string -> Option<real>): (r: Submission)
    ensures r.Sent? <==> SplitIs100(form, toNumber)
    ensures r.Refused? ==> r.message == TotalNot100
    ensures r.Sent? ==> r.payload.caloriesGoal == toNumber(form.calories)
    ensures r.Sent? ==>
      && r.payload.proteinPercent == toNumber(form.protein)
      && r.payload.carbPercent == toNumber(form.carbs)
      && r.payload.fatPercent == toNumber(form.fats)
  {
    var p := toNumber(form.protein);
    var c := toNumber(form.carbs);
    var f := toNumber(form.fats);
    if p.None? || c.None? || f.None? || p.value + c.value + f.value != 100.0 then
      Refused(TotalNot100)
    else
      Sent(GoalRequest(toNumber(form.calories), p, c, f))
  }

  /** Editing the calories never changes whether a submit is refused. */
  lemma CaloriesDoNotGateSubmit(form: GoalForm, value: string, toNumber: string -> Option<real>)
    ensures HandleSubmit(HandleChange(form, CaloriesGoal, value), toNumber).Sent?
        == HandleSubmit(form, toNumber).Sent?
  {
  }
}

=== FILE: goal_store.dfy ===
/** The nutrition_goals table. user_id is its conflict key, so the table is a
    map from user to goal: at most one goal per user. */
module GoalStore {
  import opened Records

  type GoalTable = map<UserId, Goal>

  /** The goal inserted for a user who has none: 2200 kcal split 30 % protein,
      40 % carbohydrate and 30 % fat. */
  const DefaultGoal := Goal(2200.0, 30.0, 40.0, 30.0)

  /** `upsertNutritionGoal`: the user's row becomes g, whether or not the user
      had one (`ON CONFLICT (user_id) DO UPDATE`), and is returned. */
  function Upsert(t: GoalTable, userId: UserId, g: Goal): (r: Stored<GoalTable, Goal>)
    ensures r.returned == g
    ensures userId in r.table && r.table[userId] == g
    ensures r.table.Keys == t.Keys + {userId}
    ensures forall u :: u in t && u != userId ==> r.table[u] == t[u]
  {
    Stored(t[userId := g], g)
  }

  /** `getNutritionGoalByUserId`: the user's row; a user without one gets the
      default goal inserted and returned. */
  function GetOrInsert(t: GoalTable, userId: UserId): (r: Stored<GoalTable, Goal>)
    ensures userId in r.table && r.table[userId] == r.returned
    ensures userId in t ==> r.table == t && r.returned == t[userId]
    ensures userId !in t ==> r.returned == DefaultGoal && r.table == t[userId := DefaultGoal]
    ensures forall u :: u in t ==> u in r.table && r.table[u] == t[u]
  {
    if userId in t then Stored(t, t[userId]) else Stored(t[userId := DefaultGoal], DefaultGoal)
  }

  /** After an upsert, a get returns the upserted goal and inserts nothing. */
  lemma UpsertThenGet(t: GoalTable, userId: UserId, g: Goal)
    ensures var u := Upsert(t, userId, g).table;
      GetOrInsert(u, userId) == Stored(u, g)
  {
  }

  /** A second upsert replaces all four values of the first: the table ends
      as if only the second had run. */
  lemma UpsertOverwrites(t: GoalTable, userId: UserId, g1: Goal, g2: Goal)
    ensures Upsert(Upsert(t, userId, g1).table, userId, g2).table == Upsert(t, userId, g2).table
  {
  }

  /** Upserting or getting for one user leaves every other user's goal, and
      whether they have one, as it was. */
  lemma OtherUsersUntouched(t: GoalTable, userId: UserId, other: UserId, g: Goal)
    requires other != userId
    ensures (other in Upsert(t, userId, g).table) == (other in t)
    ensures (other in GetOrInsert(t, userId).table) == (other in t)
    ensures other in t ==> Upsert(t, userId, g).table[other] == t[other] && GetOrInsert(t, userId).table[other] == t[other]
  {
  }

  /** Getting twice is getting once: the second get finds the row the first
      returned or inserted, and changes nothing. */
  lemma GetIdempotent(t: GoalTable, userId: UserId)
    ensures var first := GetOrInsert(t, userId);
      GetOrInsert(first.table, userId) == first
  {
  }

  /** The default split adds up to 100 %. */
  lemma DefaultPercentagesTotal100()
    ensures DefaultGoal.proteinPercent + DefaultGoal.carbPercent + DefaultGoal.fatPercent == 100.0
  {
  }
}

=== FILE: records.dfy ===
/** The rows of the three tables, the joined rows the queries return, and the
    loosely typed values that arrive in HTTP requests. */
module Records {
  import opened Wrappers

  type UserId = int

  /** A calendar date, as a count of days; consecutive dates differ by one. */
  type Day = int

  /** Calories, protein, carbs and fats, in that order throughout. */
  datatype Macros = Macros(calories: real, protein: real, carbs: real, fats: real)

  const NoMacros := Macros(0.0, 0.0, 0.0, 0.0)

  function AddMacros(a: Macros, b: Macros): Macros {
    Macros(a.calories + b.calories, a.protein + b.protein, a.carbs + b.carbs, a.fats + b.fats)
  }

  /** The user-editable columns of a saved food: the macros are those of
      `baseAmount` units of the food. */
  datatype FoodData = FoodData(name: string, baseAmount: real, unit: string, macros: Macros)

  /** A row of saved_foods. */
  datatype SavedFood = SavedFood(id: nat, userId: UserId, data: FoodData, createdAt: int)

  /** A row of food_logs. */
  datatype FoodLog = FoodLog(
    id: nat,
    userId: UserId,
    savedFoodId: int,
    consumedAmount: real,
    mealType: string,
    date: Day,
    createdAt: int)

  /** A food_logs row joined with its saved food's name, base amount, unit
      and macros (`fl.*, sf.name, sf.base_amount, sf.unit, ...`). */
  datatype LogRow = LogRow(log: FoodLog, food: FoodData)

  /** A row of nutrition_goals, without its key. */
  datatype Goal = Goal(caloriesGoal: real, proteinPercent: real, carbPercent: real, fatPercent: real)

  /** A JSON request value: null or absent, a number, a string, a boolean,
      or an array or object. An array or object is carried as the text
      node-postgres sends for it as a query parameter: a Postgres array
      literal or its JSON. */
  datatype Value = Null | Num(n: real) | Text(s: string) | Bool(b: bool) | Structured(sent: string)

  /** JavaScript's falsy values among request values: null/undefined, false,
      0 and "". Arrays and objects, even empty ones, are truthy. */
  predicate Falsy(v: Value) {
    v == Null || v == Bool(false) || v == Num(0.0) || v == Text("")
  }

  /** The body of a goal submission; a field that is null or absent (JSON has
      no NaN, so a NaN sent by the client arrives as null) is None. */
  datatype GoalRequest = GoalRequest(
    caloriesGoal: Option<real>,
    proteinPercent: Option<real>,
    carbPercent: Option<real>,
    fatPercent: Option<real>)

  /** A table after a statement, with what the statement's `RETURNING *`
      gave back. */
  datatype Stored<S, R> = Stored(table: S, returned: R)

  /** An HTTP response: a status code and either a payload or a message. */
  datatype Reply<T> = Reply(status: int, body: Body<T>)
  datatype Body<T> = Payload(value: T) | Message(text: string)
}

=== FILE: saved_food_store.dfy ===
/** The saved_foods table and the four statements run against it. Every
    statement after the insert is scoped to one user: a row is read, updated or
    deleted only when both its id and its user_id match. */
module SavedFoodStore {
  import opened Wrappers
  import opened Records
  import opened Sequences

  /** The rows in insertion order and the next value of the id sequence. */
  datatype FoodTable = FoodTable(rows: seq<SavedFood>, nextId: nat)

  /** Ids are distinct and below the next id; creation times never decrease
      in insertion order. */
  predicate Valid(t: FoodTable) {
    && (forall i :: 0 <= i < |t.rows| ==> t.rows[i].id < t.nextId)
    && (forall i, j :: 0 <= i < j < |t.rows| ==> t.rows[i].id != t.rows[j].id)
    && (forall i, j :: 0 <= i < j < |t.rows| ==> t.rows[i].createdAt <= t.rows[j].createdAt)
  }

  /** no row was created after now */
  predicate NotAfter(t: FoodTable, now: int) {
    forall i :: 0 <= i < |t.rows| ==> t.rows[i].createdAt <= now
  }

  /** the row is the one addressed by (foodId, userId) */
  predicate Addressed(f: SavedFood, foodId: int, userId: UserId) {
    f.id == foodId && f.userId == userId
  }

  function OwnedBy(userId: UserId): SavedFood -> bool {
    (f: SavedFood) => f.userId == userId
  }

  function NotAddressed(foodId: int, userId: UserId): SavedFood -> bool {
    (f: SavedFood) => !Addressed(f, foodId, userId)
  }

  /** The user's rows, in insertion order. */
  function Owned(rows: seq<SavedFood>, userId: UserId): seq<SavedFood> {
    Filter(rows, OwnedBy(userId))
  }

  /** The position of the first row with the given id, whoever owns it: the
      row a join on `saved_food_id = id` pairs a log with. */
  function FindFood(rows: seq<SavedFood>, id: int): (r: Option<nat>)
    ensures r.Some? ==> r.value < |rows| && rows[r.value].id == id
    ensures r.Some? ==> forall j :: 0 <= j < r.value ==> rows[j].id != id
    ensures r.None? <==> forall j :: 0 <= j < |rows| ==> rows[j].id != id
  {
    if |rows| == 0 then None
    else if rows[0].id == id then Some(0)
    else match FindFood(rows[1..], id)
      case None => None
      case Some(k) => Some(k + 1)
  }

  /** `createSavedFood`: inserts one row holding the seven given columns for
      the user, with a fresh id and the current time, and returns it. The
      values are stored as given: nothing checks them. */
  function CreateSavedFood(t: FoodTable, userId: UserId, data: FoodData, now: int): (r: Stored<FoodTable, SavedFood>)
    ensures r.returned == SavedFood(t.nextId, userId, data, now)
    ensures r.table.rows == t.rows + [r.returned]
    ensures r.table.nextId > t.nextId
    ensures Valid(t) && NotAfter(t, now) ==> Valid(r.table) && NotAfter(r.table, now)
  {
    var row := SavedFood(t.nextId, userId, data, now);
    Stored(FoodTable(t.rows + [row], t.nextId + 1), row)
  }

  /** `getSavedFoodsByUser`: the user's rows, newest first. */
  function GetSavedFoodsByUser(t: FoodTable, userId: UserId): (r: seq<SavedFood>)
    ensures forall i :: 0 <= i < |r| ==> r[i] in t.rows && r[i].userId == userId
    ensures forall i :: 0 <= i < |t.rows| && t.rows[i].userId == userId ==> t.rows[i] in r
    ensures Valid(t) ==> forall i, j :: 0 <= i < j < |r| ==> r[i].createdAt >= r[j].createdAt
    ensures multiset(r) == multiset(Owned(t.rows, userId))
  {
    var owned := Owned(t.rows, userId);
    NewestFirstMembers(t.rows, userId);
    NewestFirstOrder(t, userId);
    ReverseMultiset(owned);
    Reverse(owned)
  }

  /** The user's rows read back to front are the user's rows of the table. */
  lemma NewestFirstMembers(rows: seq<SavedFood>, userId: UserId)
    ensures var r := Reverse(Owned(rows, userId));
      && (forall i :: 0 <= i < |r| ==> r[i] in rows && r[i].userId == userId)
      && (forall i :: 0 <= i < |rows| && rows[i].userId == userId ==> rows[i] in r)
  {
    var owned := Owned(rows, userId);
    var r := Reverse(owned);
    forall i | 0 <= i < |r|
      ensures r[i] in rows && r[i].userId == userId
    {
      assert r[i] == owned[|owned| - 1 - i];
      assert OwnedBy(userId)(owned[|owned| - 1 - i]);
    }
    forall i | 0 <= i < |rows| && rows[i].userId == userId
      ensures rows[i] in r
    {
      assert OwnedBy(userId)(rows[i]);
      var j :| 0 <= j < |owned| && owned[j] == rows[i];
      assert r[|owned| - 1 - j] == rows[i];
    }
  }

  /** In a valid table the user's rows read back to front are newest first. */
  lemma NewestFirstOrder(t: FoodTable, userId: UserId)
    ensures var r := Reverse(Owned(t.rows, userId));
      Valid(t) ==> forall i, j :: 0 <= i < j < |r| ==> r[i].createdAt >= r[j].createdAt
  {
    if Valid(t) {
      var owned := Owned(t.rows, userId);
      OwnedOldestFirst(t.rows, userId);
      ReversePairwise(owned, CreatedNoLater);
    }
  }

  function CreatedNoLater(a: SavedFood, b: SavedFood): bool {
    a.createdAt <= b.createdAt
  }

  lemma OwnedOldestFirst(rows: seq<SavedFood>, userId: UserId)
    requires forall i, j :: 0 <= i < j < |rows| ==> rows[i].createdAt <= rows[j].createdAt
    ensures Pairwise(Owned(rows, userId), CreatedNoLater)
  {
    assert Pairwise(rows, CreatedNoLater);
    FilterPairwise(rows, OwnedBy(userId), CreatedNoLater);
  }

  /** Every row with the new data where (foodId, userId) matches. */
  function UpdateRows(rows: seq<SavedFood>, foodId: int, userId: UserId, data: FoodData): (r: seq<SavedFood>)
    ensures |r| == |rows|
    ensures forall i :: 0 <= i < |rows| ==>
      r[i] == if Addressed(rows[i], foodId, userId) then rows[i].(data := data) else rows[i]
  {
    seq(|rows|, i requires 0 <= i < |rows| =>
      if Addressed(rows[i], foodId, userId) then rows[i].(data := data) else rows[i])
  }

  /** The first row addressed by (foodId, userId), if any. */
  function FindAddressed(rows: seq<SavedFood>, foodId: int, userId: UserId): (r: Option<nat>)
    ensures r.Some? ==> r.value < |rows| && Addressed(rows[r.value], foodId, userId)
    ensures r.Some? ==> forall j :: 0 <= j < r.value ==> !Addressed(rows[j], foodId, userId)
    ensures r.None? <==> forall j :: 0 <= j < |rows| ==> !Addressed(rows[j], foodId, userId)
  {
    if |rows| == 0 then None
    else if Addressed(rows[0], foodId, userId) then Some(0)
    else match FindAddressed(rows[1..], foodId, userId)
      case None => None
      case Some(k) => Some(k + 1)
  }

  /** `updateSavedFood`: overwrites the seven data columns of the row whose id
      and user_id both match and returns it; when none matches, returns
      nothing and the table is as it was. */
  function UpdateSavedFood(t: FoodTable, foodId: int, userId: UserId, data: FoodData): (r: Stored<FoodTable, Option<SavedFood>>)
    ensures r.returned.None? <==> forall j :: 0 <= j < |t.rows| ==> !Addressed(t.rows[j], foodId, userId)
    ensures r.returned.None? ==> r.table == t
    ensures r.returned.Some? ==> r.returned.value == SavedFood(foodId, userId, data, r.returned.value.createdAt)
    ensures r.returned.Some? ==> r.returned.value in r.table.rows
    ensures r.table.nextId == t.nextId && |r.table.rows| == |t.rows|
    ensures forall i :: 0 <= i < |t.rows| ==>
      r.table.rows[i] == if Addressed(t.rows[i], foodId, userId) then t.rows[i].(data := data) else t.rows[i]
  {
    match FindAddressed(t.rows, foodId, userId)
    case None =>
      assert UpdateRows(t.rows, foodId, userId, data) == t.rows;
      Stored(t, None)
    case Some(k) =>
      var rows := UpdateRows(t.rows, foodId, userId, data);
      Stored(FoodTable(rows, t.nextId), Some(rows[k]))
  }

  /** `deleteSavedFood`: removes the row whose id and user_id both match and
      returns it; when none matches, returns nothing and the table is as it
      was. */
  function DeleteSavedFood(t: FoodTable, foodId: int, userId: UserId): (r: Stored<FoodTable, Option<SavedFood>>)
    ensures r.returned.None? <==> forall j :: 0 <= j < |t.rows| ==> !Addressed(t.rows[j], foodId, userId)
    ensures r.returned.None? ==> r.table == t
    ensures r.returned.Some? ==> Addressed(r.returned.value, foodId, userId) && r.returned.value in t.rows
    ensures forall i :: 0 <= i < |r.table.rows| ==> !Addressed(r.table.rows[i], foodId, userId)
    ensures forall i :: 0 <= i < |t.rows| && !Addressed(t.rows[i], foodId, userId) ==> t.rows[i] in r.table.rows
    ensures Sublist(r.table.rows, t.rows)
    ensures r.table.nextId == t.nextId
  {
    var rows := Filter(t.rows, NotAddressed(foodId, userId));
    FilterIsSublist(t.rows, NotAddressed(foodId, userId));
    match FindAddressed(t.rows, foodId, userId)
    case None =>
      FilterAll(t.rows, NotAddressed(foodId, userId));
      Stored(t, None)
    case Some(k) =>
      Stored(FoodTable(rows, t.nextId), Some(t.rows[k]))
  }

  /** Updating keeps the table valid: ids and creation times are untouched. */
  lemma UpdateKeepsValid(t: FoodTable, foodId: int, userId: UserId, data: FoodData)
    requires Valid(t)
    ensures Valid(UpdateSavedFood(t, foodId, userId, data).table)
  {
  }

  /** Deleting keeps the table valid, and with distinct ids removes exactly
      the one row it returns. */
  lemma DeleteRemovesOne(t: FoodTable, foodId: int, userId: UserId)
    requires Valid(t)
    ensures Valid(DeleteSavedFood(t, foodId, userId).table)
    ensures var r := DeleteSavedFood(t, foodId, userId);
      r.returned.Some? ==> multiset(t.rows) == multiset(r.table.rows) + multiset{r.returned.value}
  {
    var r := DeleteSavedFood(t, foodId, userId);
    var p := NotAddressed(foodId, userId);
    assert Pairwise(t.rows, DifferentIds) && Pairwise(t.rows, CreatedNoLater);
    FilterPairwise(t.rows, p, DifferentIds);
    FilterPairwise(t.rows, p, CreatedNoLater);
    if r.returned.Some? {
      var k := FindAddressed(t.rows, foodId, userId).value;
      assert forall j :: 0 <= j < |t.rows| && j != k ==> p(t.rows[j]);
      FilterDropsOne(t.rows, p, k);
    }
  }

  function DifferentIds(a: SavedFood, b: SavedFood): bool {
    a.id != b.id
  }

  /** Nothing user a does touches user b's foods: b's rows, in order, are the
      same after a creates, updates or deletes a food. */
  lemma {:induction false} OtherUsersUntouched(t: FoodTable, a: UserId, b: UserId, foodId: int, data: FoodData, now: int)
    requires a != b
    ensures Owned(CreateSavedFood(t, a, data, now).table.rows, b) == Owned(t.rows, b)
    ensures Owned(UpdateSavedFood(t, foodId, a, data).table.rows, b) == Owned(t.rows, b)
    ensures Owned(DeleteSavedFood(t, foodId, a).table.rows, b) == Owned(t.rows, b)
  {
    var row := CreateSavedFood(t, a, data, now).returned;
    FilterAppend(t.rows, [row], OwnedBy(b));
    assert Filter([row], OwnedBy(b)) == [] by {
      assert [row][1..] == [];
    }
    FilterAgree(UpdateSavedFood(t, foodId, a, data).table.rows, t.rows, OwnedBy(b));
    if DeleteSavedFood(t, foodId, a).returned.Some? {
      FilterFilter(t.rows, NotAddressed(foodId, a), OwnedBy(b));
    }
  }
}

=== FILE: saved_foods_page.dfy ===
/** The logic of the saved-foods page: the add form's validation, the guard
    that posts a new food only when the form is valid, the edit path that
    posts without validating, and the live name filter. Rendering, toasts and
    requests are not modelled; a post is represented by the food it sends. */
module SavedFoodsPage {
  import opened Wrappers
  import opened Records
  import opened Sequences
  import opened Text

  /** The seven inputs of the food form, each holding the text typed in. */
  datatype FoodForm = FoodForm(
    name: string,
    baseAmount: string,
    unit: string,
    calories: string,
    protein: string,
    carbs: string,
    fats: string)

  /** The form's fields; `Key` gives the property name each error is
      recorded under. */
  datatype Field = Name | BaseAmount | Unit | Calories | Protein | Carbs | Fats

  function Key(f: Field): string {
    match f
    case Name => "name"
    case BaseAmount => "base_amount"
    case Unit => "unit"
    case Calories => "calories"
    case Protein => "protein"
    case Carbs => "carbs"
    case Fats => "fats"
  }

  /** The text typed into a field. */
  function FieldText(form: FoodForm, f: Field): string {
    match f
    case Name => form.name
    case BaseAmount => form.baseAmount
    case Unit => form.unit
    case Calories => form.calories
    case Protein => form.protein
    case Carbs => form.carbs
    case Fats => form.fats
  }

  const NameRequired := "Name is required."
  const UnitInvalid := "Unit must be either 'g' or 'ml'."

  /** the key with its first underscore turned into a space, as
      `field.replace('_', ' ')` does */
  function FirstUnderscoreToSpace(s: string): (r: string)
    ensures |r| == |s|
  {
    if |s| == 0 then s
    else if s[0] == '_' then [' '] + s[1..]
    else [s[0]] + FirstUnderscoreToSpace(s[1..])
  }

  /** How a field's key reads in its message. */
  function Label(f: Field): string {
    match f
    case BaseAmount => "base amount"
    case _ => Key(f)
  }

  /** The label is the key with its first underscore made a space. */
  lemma LabelFromKey(f: Field)
    ensures Label(f) == FirstUnderscoreToSpace(Key(f))
  {
    if f == BaseAmount {
      assert Key(f) == "base" + "_amount";
      UnderscoreFreePrefix("base", "_amount");
    } else {
      UnderscoreFree(Key(f));
    }
  }

  lemma {:induction false} UnderscoreFree(s: string)
    requires '_' !in s
    ensures FirstUnderscoreToSpace(s) == s
  {
    if |s| > 0 {
      UnderscoreFree(s[1..]);
    }
  }

  lemma {:induction false} UnderscoreFreePrefix(a: string, b: string)
    requires '_' !in a
    ensures FirstUnderscoreToSpace(a + b) == a + FirstUnderscoreToSpace(b)
  {
    if |a| > 0 {
      assert (a + b)[1..] == a[1..] + b;
      UnderscoreFreePrefix(a[1..], b);
    } else {
      assert a + b == b;
    }
  }

  /** The message for a numeric field that is not a positive number, such as
      "base amount must be > 0". */
  function AmountMessage(f: Field): string {
    Label(f) + " must be > 0"
  }

  /** `!value || value <= 0` for `value = parseFloat(text)`, where None
      stands for NaN: NaN, zero and negative values fail. */
  predicate NotPositive(v: Option<real>) {
    v.None? || v.value <= 0.0
  }

  predicate UnitAllowed(unit: string) {
    unit == "g" || unit == "ml"
  }

  /** the field fails its check */
  predicate Fails(form: FoodForm, f: Field, parseFloat: string -> Option<real>) {
    match f
    case Name => IsBlank(form.name)
    case Unit => !UnitAllowed(form.unit)
    case _ => NotPositive(parseFloat(FieldText(form, f)))
  }

  /** The message recorded for a failing field. */
  function FieldMessage(f: Field): string {
    match f
    case Name => NameRequired
    case Unit => UnitInvalid
    case _ => AmountMessage(f)
  }

  /** errors, with the field's message recorded when the check failed */
  function Record(errors: map<Field, string>, f: Field, failed: bool): map<Field, string> {
    if failed then errors[f := FieldMessage(f)] else errors
  }

  /** What `Record` leaves at one field g. */
  lemma RecordAt(errors: map<Field, string>, f: Field, failed: bool, g: Field)
    ensures g in Record(errors, f, failed) <==> g in errors || (g == f && failed)
    ensures g in Record(errors, f, failed) ==>
      Record(errors, f, failed)[g] == if g == f && failed then FieldMessage(f) else errors[g]
  {
  }

  /** the fields checked as positive numbers, in the order they are checked */
  const AmountFields := [BaseAmount, Calories, Protein, Carbs, Fats]

  /** The `forEach` over the amount fields: each one that does not parse to a
      positive number records its message. */
  function CheckAmounts(errors: map<Field, string>, form: FoodForm, parseFloat: string -> Option<real>, fields: seq<Field>): map<Field, string>
    decreases |fields|
  {
    if |fields| == 0 then errors
    else
      var f := fields[0];
      CheckAmounts(Record(errors, f, NotPositive(parseFloat(FieldText(form, f)))), form, parseFloat, fields[1..])
  }

  /** What the amount checks leave at one field g: the fields checked that
      fail are added, everything else is kept. */
  lemma {:induction false} CheckAmountsAt(errors: map<Field, string>, form: FoodForm, parseFloat: string -> Option<real>, fields: seq<Field>, g: Field)
    ensures var r := CheckAmounts(errors, form, parseFloat, fields);
      && (g in r <==> g in errors || (g in fields && NotPositive(parseFloat(FieldText(form, g)))))
      && (g in r ==> r[g] == if g in fields && NotPositive(parseFloat(FieldText(form, g))) then FieldMessage(g) else errors[g])
    decreases |fields|
  {
    if |fields| > 0 {
      var f := fields[0];
      var failed := NotPositive(parseFloat(FieldText(form, f)));
      RecordAt(errors, f, failed, g);
      CheckAmountsAt(Record(errors, f, failed), form, parseFloat, fields[1..], g);
      assert g in fields <==> g == f || g in fields[1..];
    }
  }

  /** `validateForm`: the name, then the unit, then each amount field is
      checked, and each failing one records its message under its key. */
  function ValidateForm(form: FoodForm, parseFloat: string -> Option<real>): map<Field, string> {
    CheckAmounts(ChecksBeforeAmounts(form), form, parseFloat, AmountFields)
  }

  /** `!name.trim()`: nothing but white space was typed */
  predicate NameMissing(name: string)
    ensures NameMissing(name) <==> IsBlank(name)
  {
    Trim(name) == ""
  }

  /** the errors after the name and unit checks */
  function ChecksBeforeAmounts(form: FoodForm): map<Field, string> {
    Record(Record(map[], Name, NameMissing(form.name)), Unit, !UnitAllowed(form.unit))
  }

  /** The errors are exactly the failing fields, none short-circuiting
      another: the name fails when it is blank after trimming, the unit when
      it is not "g" or "ml", and each of the five numbers when it does not
      parse to a positive value, so a food with zero protein is refused. Each
      failing field carries its own message. */
  lemma ValidateFormErrors(form: FoodForm, parseFloat: string -> Option<real>)
    ensures forall f :: f in ValidateForm(form, parseFloat) <==> Fails(form, f, parseFloat)
    ensures forall f :: f in ValidateForm(form, parseFloat) ==> ValidateForm(form, parseFloat)[f] == FieldMessage(f)
  {
    forall f
      ensures f in ValidateForm(form, parseFloat) <==> Fails(form, f, parseFloat)
      ensures f in ValidateForm(form, parseFloat) ==> ValidateForm(form, parseFloat)[f] == FieldMessage(f)
    {
      ValidateFormAt(form, parseFloat, f);
    }
  }

  /** `ValidateFormErrors` at one field. */
  lemma ValidateFormAt(form: FoodForm, parseFloat: string -> Option<real>, f: Field)
    ensures f in ValidateForm(form, parseFloat) <==> Fails(form, f, parseFloat)
    ensures f in ValidateForm(form, parseFloat) ==> ValidateForm(form, parseFloat)[f] == FieldMessage(f)
  {
    var e1 := Record(map[], Name, NameMissing(form.name));
    RecordAt(map[], Name, NameMissing(form.name), f);
    RecordAt(e1, Unit, !UnitAllowed(form.unit), f);
    CheckAmountsAt(ChecksBeforeAmounts(form), form, parseFloat, AmountFields, f);
  }

  /** no field fails */
  predicate FormValid(form: FoodForm, parseFloat: string -> Option<real>) {
    forall f :: !Fails(form, f, parseFloat)
  }

  /** The form passes validation exactly when no error was recorded. */
  lemma ValidIffNoErrors(form: FoodForm, parseFloat: string -> Option<real>)
    ensures ValidateForm(form, parseFloat) == map[] <==> FormValid(form, parseFloat)
  {
    var errors := ValidateForm(form, parseFloat);
    ValidateFormErrors(form, parseFloat);
    if errors != map[] {
      var f :| f in errors;
      assert Fails(form, f, parseFloat);
    }
  }

  /** What a submit handler does: shows errors without sending anything, or
      sends the food. */
  datatype Submit = Rejected(errors: map<Field, string>) | Posted(food: FoodForm)

  /** `handleAddFood`: validate, and send the form only when it is valid. */
  function AddFood(form: FoodForm, parseFloat: string -> Option<real>): (r: Submit)
    ensures r.Posted? <==> FormValid(form, parseFloat)
    ensures r.Posted? ==> r.food == form
    ensures r.Rejected? ==> r.errors == ValidateForm(form, parseFloat) && r.errors != map[]
  {
    ValidIffNoErrors(form, parseFloat);
    var errors := ValidateForm(form, parseFloat);
    if errors == map[] then Posted(form) else Rejected(errors)
  }

  /** `handleSaveEdit`: the edited food is sent as it stands. */
  function SaveEdit(edited: FoodForm): (r: Submit)
    ensures r.Posted? && r.food == edited
  {
    Posted(edited)
  }

  /** The edit path skips validation: a food the add form refuses, such as
      one with a base amount of 0, is sent when it arrives through an edit. */
  lemma EditSkipsValidation(form: FoodForm, parseFloat: string -> Option<real>)
    requires !FormValid(form, parseFloat)
    ensures AddFood(form, parseFloat).Rejected?
    ensures SaveEdit(form) == Posted(form)
  {
  }

  // ---------------------------------------------------------------------------
  // Live filtering

  /** the food's lower-cased name contains the lower-cased query */
  predicate Matches(f: SavedFood, query: string) {
    Includes(Lower(f.data.name), Lower(query))
  }

  function MatchesQuery(query: string): SavedFood -> bool {
    (f: SavedFood) => Matches(f, query)
  }

  /** The live-filter effect: a query that is blank after trimming shows
      every food; any other query, untrimmed, keeps the foods whose names
      contain it ignoring case, in their order. */
  function FilterFoods(foods: seq<SavedFood>, query: string): (r: seq<SavedFood>)
    ensures IsBlank(query) ==> r == foods
    ensures !IsBlank(query) ==> forall i :: 0 <= i < |r| ==> r[i] in foods && Matches(r[i], query)
    ensures !IsBlank(query) ==> forall i :: 0 <= i < |foods| && Matches(foods[i], query) ==> foods[i] in r
    ensures Sublist(r, foods)
    ensures !IsBlank(query) ==> forall x :: multiset(r)[x] == if Matches(x, query) then multiset(foods)[x] else 0
  {
    if Trim(query) == "" then
      SublistRefl(foods);
      foods
    else
      FilterIsSublist(foods, MatchesQuery(query));
      FilterCount(foods, MatchesQuery(query));
      Filter(foods, MatchesQuery(query))
  }

  lemma {:induction false} SublistRefl(s: seq<SavedFood>)
    ensures Sublist(s, s)
  {
    if |s| > 0 {
      SublistRefl(s[1..]);
    }
  }

  /** The query is not trimmed before matching: a query holding a space finds
      no food whose name has none, so " apple" does not find "Apple". */
  lemma UntrimmedQuery(f: SavedFood, query: string)
    requires ' ' in query && ' ' !in f.data.name
    ensures !Matches(f, query)
  {
  }

  /** Matching ignores case: a query matches as its lower-cased form does. */
  lemma CaseInsensitive(f: SavedFood, query: string)
    ensures Matches(f, query) <==> Matches(f, Lower(query))
  {
    assert Lower(Lower(query)) == Lower(query);
  }
}

=== FILE: scaling.dfy ===
/** The per-log scaling rule shared by the daily summary and the logs
    endpoint: ratio = consumed_amount / base_amount, and each macro of the
    food is multiplied by the ratio and rounded to one decimal. */
module Scaling {
  import opened Arith
  import opened Records

  /** y is the one-decimal rounding of x (see Arith.Round1Unique) */
  predicate RoundsTo(y: real, x: real) {
    && IsTenth(y)
    && (0.0 <= x ==> -0.05 < y - x <= 0.05)
    && (x < 0.0 ==> -0.05 <= y - x < 0.05)
  }

  /** every field of r is the one-decimal rounding of the field of m */
  predicate MacrosRoundTo(r: Macros, m: Macros) {
    && RoundsTo(r.calories, m.calories)
    && RoundsTo(r.protein, m.protein)
    && RoundsTo(r.carbs, m.carbs)
    && RoundsTo(r.fats, m.fats)
  }

  /** Each field rounded to one decimal, as `+(x).toFixed(1)` does. */
  function RoundMacros(m: Macros): (r: Macros)
    ensures MacrosRoundTo(r, m)
  {
    Macros(Round1(m.calories), Round1(m.protein), Round1(m.carbs), Round1(m.fats))
  }

  /** The food's base amount can be divided by. Nothing in the application
      enforces this; with a zero base JavaScript would produce Infinity or NaN. */
  predicate HasBase(row: LogRow) {
    row.food.baseAmount != 0.0
  }

  predicate AllHaveBase(rows: seq<LogRow>) {
    forall i :: 0 <= i < |rows| ==> HasBase(rows[i])
  }

  /** Exactly scaled macros: the share of the food's macros that the consumed
      amount represents, proportional to consumed_amount / base_amount. */
  function Scaled(row: LogRow): (m: Macros)
    requires HasBase(row)
    ensures m.calories * row.food.baseAmount == row.log.consumedAmount * row.food.macros.calories
    ensures m.protein * row.food.baseAmount == row.log.consumedAmount * row.food.macros.protein
    ensures m.carbs * row.food.baseAmount == row.log.consumedAmount * row.food.macros.carbs
    ensures m.fats * row.food.baseAmount == row.log.consumedAmount * row.food.macros.fats
  {
    var b := row.food.baseAmount;
    var c := row.log.consumedAmount;
    var f := row.food.macros;
    var ratio := c / b;
    assert ratio * b == c;
    assert (ratio * f.calories) * b == c * f.calories by { MulSwap(ratio, f.calories, b); }
    assert (ratio * f.protein) * b == c * f.protein by { MulSwap(ratio, f.protein, b); }
    assert (ratio * f.carbs) * b == c * f.carbs by { MulSwap(ratio, f.carbs, b); }
    assert (ratio * f.fats) * b == c * f.fats by { MulSwap(ratio, f.fats, b); }
    Macros(ratio * f.calories, ratio * f.protein, ratio * f.carbs, ratio * f.fats)
  }

  lemma MulSwap(x: real, y: real, z: real)
    ensures (x * y) * z == (x * z) * y
  {
  }

  /** The four `calculated_*` values of a log: each the one-decimal rounding
      of the exactly scaled macro. */
  function Calculate(row: LogRow): (m: Macros)
    requires HasBase(row)
    ensures MacrosRoundTo(m, Scaled(row))
  {
    RoundMacros(Scaled(row))
  }

  /** A log row together with its calculated macros (`{ ...log,
      calculated_calories, calculated_protein, calculated_carbs,
      calculated_fats }`). */
  datatype Enriched = Enriched(row: LogRow, calculated: Macros)

  /** Enriching keeps the row as it was and adds the calculated macros. */
  function Enrich(row: LogRow): (e: Enriched)
    requires HasBase(row)
    ensures e.row == row
    ensures MacrosRoundTo(e.calculated, Scaled(row))
  {
    Enriched(row, Calculate(row))
  }

  /** `logs.map(enrich)`: one enriched entry per row, in the same order. */
  function EnrichAll(rows: seq<LogRow>): (es: seq<Enriched>)
    requires AllHaveBase(rows)
    ensures |es| == |rows|
    ensures forall i :: 0 <= i < |rows| ==> es[i].row == rows[i] && MacrosRoundTo(es[i].calculated, Scaled(rows[i]))
    ensures forall i :: 0 <= i < |rows| ==> es[i] == Enrich(rows[i])
  {
    seq(|rows|, i requires 0 <= i < |rows| && AllHaveBase(rows) => Enrich(rows[i]))
  }

  /** Enriching a prefix one row longer appends that row's entry. */
  lemma EnrichAllSnoc(rows: seq<LogRow>, i: nat)
    requires AllHaveBase(rows) && i < |rows|
    ensures AllHaveBase(rows[..i]) && AllHaveBase(rows[..i + 1])
    ensures EnrichAll(rows[..i + 1]) == EnrichAll(rows[..i]) + [Enrich(rows[i])]
  {
    assert AllHaveBase(rows[..i]);
    assert AllHaveBase(rows[..i + 1]);
  }

  /** The exact, unrounded scaled macros of rows, added up. */
  function ExactSum(rows: seq<LogRow>): Macros
    requires AllHaveBase(rows)
  {
    if |rows| == 0 then NoMacros
    else AddMacros(Scaled(rows[0]), ExactSum(rows[1..]))
  }
}

=== FILE: sequences.dfy ===
/** Order-preserving filtering of lists: the shape of `Array.prototype.filter`
    and of a SQL `WHERE` over rows kept in insertion order. */
module Sequences {

  /** a is an order-preserving sublist of b: b with some elements dropped */
  predicate Sublist<T(==)>(a: seq<T>, b: seq<T>)
    decreases |b|
  {
    if |a| == 0 then true
    else if |b| == 0 then false
    else if a[0] == b[0] then Sublist(a[1..], b[1..])
    else Sublist(a, b[1..])
  }

  /** The elements of s satisfying p, in their original order. */
  function Filter<T>(s: seq<T>, p: T -> bool): (r: seq<T>)
    ensures |r| <= |s|
    ensures forall i :: 0 <= i < |r| ==> r[i] in s && p(r[i])
    ensures forall i :: 0 <= i < |s| && p(s[i]) ==> s[i] in r
  {
    if |s| == 0 then []
    else if p(s[0]) then [s[0]] + Filter(s[1..], p)
    else Filter(s[1..], p)
  }

  /** Filtering keeps the survivors in their original relative order. */
  lemma {:induction false} FilterIsSublist<T>(s: seq<T>, p: T -> bool)
    ensures Sublist(Filter(s, p), s)
  {
    if |s| > 0 {
      FilterIsSublist(s[1..], p);
      var r := Filter(s, p);
      if p(s[0]) {
        assert r[1..] == Filter(s[1..], p);
      } else if |r| > 0 {
        assert r[0] in s[1..] && p(r[0]);
      }
    }
  }

  /** Filtering keeps every survivor as often as it occurs in s, and drops
      every other element entirely. */
  lemma {:induction false} FilterCount<T>(s: seq<T>, p: T -> bool)
    ensures forall x :: multiset(Filter(s, p))[x] == if p(x) then multiset(s)[x] else 0
  {
    if |s| > 0 {
      FilterCount(s[1..], p);
      assert s == [s[0]] + s[1..];
      assert multiset(s) == multiset{s[0]} + multiset(s[1..]);
    }
  }

  /** Filtering distributes over concatenation. */
  lemma {:induction false} FilterAppend<T>(a: seq<T>, b: seq<T>, p: T -> bool)
    ensures Filter(a + b, p) == Filter(a, p) + Filter(b, p)
  {
    if |a| == 0 {
      assert a + b == b;
    } else {
      assert (a + b)[1..] == a[1..] + b;
      FilterAppend(a[1..], b, p);
    }
  }

  /** A predicate every element satisfies filters nothing out. */
  lemma {:induction false} FilterAll<T>(s: seq<T>, p: T -> bool)
    requires forall i :: 0 <= i < |s| ==> p(s[i])
    ensures Filter(s, p) == s
  {
    if |s| > 0 {
      FilterAll(s[1..], p);
    }
  }

  /** Filtering by q after filtering by a weaker p is filtering by q alone. */
  lemma {:induction false} FilterFilter<T>(s: seq<T>, p: T -> bool, q: T -> bool)
    requires forall x :: q(x) ==> p(x)
    ensures Filter(Filter(s, p), q) == Filter(s, q)
  {
    if |s| > 0 {
      FilterFilter(s[1..], p, q);
      if p(s[0]) {
        assert Filter(s, p)[1..] == Filter(s[1..], p);
      }
    }
  }

  /** Two lists of equal length that agree wherever either element satisfies
      p have the same p-elements. */
  lemma {:induction false} FilterAgree<T>(s: seq<T>, t: seq<T>, p: T -> bool)
    requires |s| == |t|
    requires forall i :: 0 <= i < |s| && (p(s[i]) || p(t[i])) ==> s[i] == t[i]
    ensures Filter(s, p) == Filter(t, p)
  {
    if |s| > 0 {
      FilterAgree(s[1..], t[1..], p);
    }
  }

  /** every earlier element of s is related by r to every later one */
  predicate Pairwise<T>(s: seq<T>, r: (T, T) -> bool) {
    forall i, j :: 0 <= i < j < |s| ==> r(s[i], s[j])
  }

  /** A relation between every earlier and every later element survives
      filtering, since filtering keeps the relative order. */
  lemma {:induction false} FilterPairwise<T>(s: seq<T>, p: T -> bool, r: (T, T) -> bool)
    requires Pairwise(s, r)
    ensures Pairwise(Filter(s, p), r)
  {
    if |s| > 0 {
      FilterPairwise(s[1..], p, r);
      if p(s[0]) {
        var f := Filter(s, p);
        assert f[1..] == Filter(s[1..], p);
        forall j | 0 < j < |f|
          ensures r(f[0], f[j])
        {
          assert f[j] in s[1..];
        }
      }
    }
  }

  /** When every element but the one at k satisfies p, filtering by p drops
      exactly that element. */
  lemma {:induction false} FilterAllBut<T>(s: seq<T>, p: T -> bool, k: nat)
    requires k < |s| && !p(s[k])
    requires forall j :: 0 <= j < |s| && j != k ==> p(s[j])
    ensures Filter(s, p) == s[..k] + s[k + 1..]
  {
    var tail := s[1..];
    if k == 0 {
      assert Filter(tail, p) == tail by {
        assert forall i :: 0 <= i < |tail| ==> tail[i] == s[i + 1];
        FilterAll(tail, p);
      }
    } else {
      assert Filter(tail, p) == tail[..k - 1] + tail[k..] by {
        assert forall i :: 0 <= i < |tail| ==> tail[i] == s[i + 1];
        FilterAllBut(tail, p, k - 1);
      }
      assert s[..k] + s[k + 1..] == [s[0]] + (tail[..k - 1] + tail[k..]);
    }
  }

  /** ... and so the filtered list holds all of s but one copy of s[k]. */
  lemma FilterDropsOne<T>(s: seq<T>, p: T -> bool, k: nat)
    requires k < |s| && !p(s[k])
    requires forall j :: 0 <= j < |s| && j != k ==> p(s[j])
    ensures multiset(s) == multiset(Filter(s, p)) + multiset{s[k]}
  {
    FilterAllBut(s, p, k);
    MultisetSplit(s, k);
  }

  lemma MultisetSplit<T>(s: seq<T>, k: nat)
    requires k < |s|
    ensures multiset(s) == multiset(s[..k] + s[k + 1..]) + multiset{s[k]}
  {
    assert s == s[..k] + [s[k]] + s[k + 1..];
  }

  /** s read back to front */
  function Reverse<T>(s: seq<T>): (r: seq<T>)
    ensures |r| == |s|
    ensures forall i :: 0 <= i < |s| ==> r[i] == s[|s| - 1 - i]
    ensures forall i :: 0 <= i < |s| ==> s[i] == r[|s| - 1 - i]
  {
    seq(|s|, i requires 0 <= i < |s| => s[|s| - 1 - i])
  }

  /** Reading back to front keeps every element as often as it was. */
  lemma {:induction false} ReverseMultiset<T>(s: seq<T>)
    ensures multiset(Reverse(s)) == multiset(s)
  {
    if |s| > 0 {
      ReverseMultiset(s[1..]);
      assert Reverse(s) == Reverse(s[1..]) + [s[0]];
      assert s == [s[0]] + s[1..];
    }
  }

  /** Reading back to front turns an order into its converse. */
  lemma ReversePairwise<T>(s: seq<T>, r: (T, T) -> bool)
    requires Pairwise(s, r)
    ensures Pairwise(Reverse(s), (a: T, b: T) => r(b, a))
  {
  }
}

=== FILE: summary.dfy ===
/** The daily summary of `handleGetSummary`: every log of the day is enriched
    with its calculated macros, placed in one of four fixed meal buckets, and
    added into the day's totals; a goal, when there is one, is converted from
    a calorie target and a percentage split into gram targets. */
module Summary {
  import opened Wrappers
  import opened Arith
  import opened Records
  import opened Scaling
  import opened Sequences

  const Breakfast := "breakfast"
  const Lunch := "lunch"
  const Dinner := "dinner"
  const Snack := "snack"

  /** the four keys of `byMeal` */
  predicate IsMealType(k: string) {
    k == Breakfast || k == Lunch || k == Dinner || k == Snack
  }

  /** `byMeal`: always exactly the four keys breakfast, lunch, dinner, snack */
  datatype ByMeal = ByMeal(breakfast: seq<Enriched>, lunch: seq<Enriched>, dinner: seq<Enriched>, snack: seq<Enriched>)

  const NoMeals := ByMeal([], [], [], [])

  /** `byMeal[k]` for one of the four keys */
  function Bucket(b: ByMeal, k: string): seq<Enriched>
    requires IsMealType(k)
  {
    if k == Breakfast then b.breakfast
    else if k == Lunch then b.lunch
    else if k == Dinner then b.dinner
    else b.snack
  }

  /** `byMeal[k].push(e)` */
  function Push(b: ByMeal, k: string, e: Enriched): (r: ByMeal)
    requires IsMealType(k)
    ensures Bucket(r, k) == Bucket(b, k) + [e]
    ensures forall k' | IsMealType(k') && k' != k :: Bucket(r, k') == Bucket(b, k')
  {
    if k == Breakfast then b.(breakfast := b.breakfast + [e])
    else if k == Lunch then b.(lunch := b.lunch + [e])
    else if k == Dinner then b.(dinner := b.dinner + [e])
    else b.(snack := b.snack + [e])
  }

  /** the test "logged for meal k" */
  function InMeal(k: string): Enriched -> bool {
    (e: Enriched) => e.row.log.mealType == k
  }

  /** The entries of es logged for meal k, in their original order. */
  function MealEntries(es: seq<Enriched>, k: string): (r: seq<Enriched>)
    ensures forall i :: 0 <= i < |r| ==> r[i] in es && r[i].row.log.mealType == k
    ensures forall i :: 0 <= i < |es| && es[i].row.log.mealType == k ==> es[i] in r
    ensures Sublist(r, es)
    ensures forall x :: multiset(r)[x] == if x.row.log.mealType == k then multiset(es)[x] else 0
  {
    FilterIsSublist(es, InMeal(k));
    FilterCount(es, InMeal(k));
    Filter(es, InMeal(k))
  }

  /** The entries grouped into the four buckets: bucket k is
      `MealEntries(es, k)` (see `BucketIsMealEntries`). */
  function BucketsOf(es: seq<Enriched>): ByMeal {
    ByMeal(Filter(es, InMeal(Breakfast)), Filter(es, InMeal(Lunch)), Filter(es, InMeal(Dinner)), Filter(es, InMeal(Snack)))
  }

  lemma BucketIsMealEntries(es: seq<Enriched>)
    ensures forall k | IsMealType(k) :: Bucket(BucketsOf(es), k) == MealEntries(es, k)
  {
  }

  /** One more entry extends the entries of its own meal only. */
  lemma MealEntriesSnoc(es: seq<Enriched>, e: Enriched, k: string)
    ensures Filter(es + [e], InMeal(k)) == Filter(es, InMeal(k)) + (if e.row.log.mealType == k then [e] else [])
  {
    FilterAppend(es, [e], InMeal(k));
    assert Filter([e], InMeal(k)) == (if e.row.log.mealType == k then [e] else []);
  }

  /** One more entry lands at the end of its own bucket, or in none. */
  lemma BucketsOfSnoc(es: seq<Enriched>, e: Enriched)
    ensures IsMealType(e.row.log.mealType) ==> BucketsOf(es + [e]) == Push(BucketsOf(es), e.row.log.mealType, e)
    ensures !IsMealType(e.row.log.mealType) ==> BucketsOf(es + [e]) == BucketsOf(es)
  {
    MealEntriesSnoc(es, e, Breakfast);
    MealEntriesSnoc(es, e, Lunch);
    MealEntriesSnoc(es, e, Dinner);
    MealEntriesSnoc(es, e, Snack);
  }

  /** The calculated macros of es, added up. */
  function SumCalculated(es: seq<Enriched>): Macros {
    if |es| == 0 then NoMacros
    else AddMacros(es[0].calculated, SumCalculated(es[1..]))
  }

  lemma {:induction false} SumCalculatedAppend(a: seq<Enriched>, b: seq<Enriched>)
    ensures SumCalculated(a + b) == AddMacros(SumCalculated(a), SumCalculated(b))
  {
    if |a| == 0 {
      assert a + b == b;
    } else {
      assert (a + b)[1..] == a[1..] + b;
      SumCalculatedAppend(a[1..], b);
    }
  }

  /** Calories per gram used to turn percentages into gram targets. */
  const ProteinKcalPerGram := 4.0
  const CarbKcalPerGram := 4.0
  const FatKcalPerGram := 9.0

  /** The `goals` object of the summary. */
  datatype GoalTargets = GoalTargets(caloriesGoal: real, proteinGoalG: real, carbGoalG: real, fatGoalG: real)

  /** pct percent of c calories */
  function Share(c: real, pct: real): real {
    c * pct / 100.0
  }

  /** A goal as gram targets: the calorie goal unchanged, and each macro's
      share of the calories divided by that macro's calories per gram,
      rounded to one decimal. */
  function Targets(g: Goal): (t: GoalTargets)
    ensures t.caloriesGoal == g.caloriesGoal
    ensures RoundsTo(t.proteinGoalG, Share(g.caloriesGoal, g.proteinPercent) / ProteinKcalPerGram)
    ensures RoundsTo(t.carbGoalG, Share(g.caloriesGoal, g.carbPercent) / CarbKcalPerGram)
    ensures RoundsTo(t.fatGoalG, Share(g.caloriesGoal, g.fatPercent) / FatKcalPerGram)
  {
    GoalTargets(
      g.caloriesGoal,
      Round1(Share(g.caloriesGoal, g.proteinPercent) / ProteinKcalPerGram),
      Round1(Share(g.caloriesGoal, g.carbPercent) / CarbKcalPerGram),
      Round1(Share(g.caloriesGoal, g.fatPercent) / FatKcalPerGram))
  }

  /** The gram targets account for the calorie goal: converted back to
      calories they differ from the goal's calories by at most the rounding
      of three tenths of a gram, 0.05 * (4 + 4 + 9) = 0.85 kcal, when the
      percentages total 100. */
  lemma TargetsBalance(g: Goal)
    requires g.proteinPercent + g.carbPercent + g.fatPercent == 100.0
    ensures -0.85 <= ProteinKcalPerGram * Targets(g).proteinGoalG + CarbKcalPerGram * Targets(g).carbGoalG
                     + FatKcalPerGram * Targets(g).fatGoalG - g.caloriesGoal <= 0.85
  {
    var c := g.caloriesGoal;
    SplitSums(c, g.proteinPercent, g.carbPercent, g.fatPercent);
    var t := Targets(g);
    BalanceOfShares(c, Share(c, g.proteinPercent), Share(c, g.carbPercent), Share(c, g.fatPercent),
      t.proteinGoalG, t.carbGoalG, t.fatGoalG);
  }

  /** Three rounded gram amounts of three calorie shares account for the
      shares' total within the rounding error. */
  lemma BalanceOfShares(c: real, p: real, q: real, f: real, tp: real, tq: real, tf: real)
    requires p + q + f == c
    requires RoundsTo(tp, p / ProteinKcalPerGram) && RoundsTo(tq, q / CarbKcalPerGram) && RoundsTo(tf, f / FatKcalPerGram)
    ensures -0.85 <= ProteinKcalPerGram * tp + CarbKcalPerGram * tq + FatKcalPerGram * tf - c <= 0.85
  {
  }

  /** Shares of c whose percentages total 100 add up to c. */
  lemma SplitSums(c: real, x: real, y: real, z: real)
    requires x + y + z == 100.0
    ensures Share(c, x) + Share(c, y) + Share(c, z) == c
  {
    assert c * x + c * y + c * z == c * (x + y + z);
  }

  /** The default goal of 2200 kcal split 30/40/30 gives 165 g of protein,
      220 g of carbs and 73.3 g of fat. */
  lemma DefaultTargets()
    ensures Targets(Goal(2200.0, 30.0, 40.0, 30.0)) == GoalTargets(2200.0, 165.0, 220.0, 73.3)
  {
    Round1OfTenth(165.0);
    Round1OfTenth(220.0);
    assert Share(2200.0, 30.0) == 660.0;
    Round1Unique(660.0 / FatKcalPerGram, 73.3);
  }

  /** The response body of a summary. */
  datatype DailySummary = DailySummary(totals: Macros, goals: Option<GoalTargets>, byMeal: ByMeal)

  /** The summary of a day's log rows and the user's goal, if any:
      - a log of meal type k is in bucket k, and a bucket holds nothing else;
        a log of any other meal type is in no bucket;
      - each bucket keeps the logs in the order of `rows`;
      - each total is the rounding of the sum of every log's already rounded
        calculated macro, bucketed or not, and 0 when there are no logs;
      - `goals` is null exactly when there is no goal. */
  function SummaryOf(rows: seq<LogRow>, goal: Option<Goal>): (s: DailySummary)
    requires AllHaveBase(rows)
    ensures forall k, e | IsMealType(k) :: e in Bucket(s.byMeal, k) <==> e in EnrichAll(rows) && e.row.log.mealType == k
    ensures forall k | IsMealType(k) :: Sublist(Bucket(s.byMeal, k), EnrichAll(rows))
    ensures forall k, x | IsMealType(k) ::
      multiset(Bucket(s.byMeal, k))[x] == if x.row.log.mealType == k then multiset(EnrichAll(rows))[x] else 0
    ensures MacrosRoundTo(s.totals, SumCalculated(EnrichAll(rows)))
    ensures rows == [] ==> s.totals == NoMacros && s.byMeal == NoMeals
    ensures s.goals.None? <==> goal.None?
    ensures goal.Some? ==> s.goals == Some(Targets(goal.value))
  {
    var es := EnrichAll(rows);
    assert rows == [] ==> RoundMacros(SumCalculated(es)) == NoMacros by {
      if rows == [] {
        Round1OfTenth(0.0);
      }
    }
    BucketIsMealEntries(es);
    DailySummary(
      RoundMacros(SumCalculated(es)),
      if goal.Some? then Some(Targets(goal.value)) else None,
      BucketsOf(es))
  }

  /** Every entry with a meal type outside the four keys is absent from all
      buckets, yet its calculated macros are part of the totals' sum. */
  lemma UnknownMealTypeCounted(rows: seq<LogRow>, goal: Option<Goal>, i: nat)
    requires AllHaveBase(rows) && i < |rows|
    requires !IsMealType(rows[i].log.mealType)
    ensures forall k | IsMealType(k) :: EnrichAll(rows)[i] !in Bucket(SummaryOf(rows, goal).byMeal, k)
    ensures SumCalculated(EnrichAll(rows)) ==
      AddMacros(SumCalculated(EnrichAll(rows)[..i]), AddMacros(EnrichAll(rows)[i].calculated, SumCalculated(EnrichAll(rows)[i + 1..])))
  {
    var es := EnrichAll(rows);
    assert es == es[..i] + ([es[i]] + es[i + 1..]);
    SumCalculatedAppend(es[..i], [es[i]] + es[i + 1..]);
    SumCalculatedAppend([es[i]], es[i + 1..]);
    assert SumCalculated([es[i]]) == es[i].calculated by {
      assert [es[i]][1..] == [];
    }
  }

  /** What one more log does to the buckets and the running totals. */
  lemma SummaryStep(rows: seq<LogRow>, i: nat)
    requires AllHaveBase(rows) && i < |rows|
    ensures AllHaveBase(rows[..i]) && AllHaveBase(rows[..i + 1])
    ensures SumCalculated(EnrichAll(rows[..i + 1])) == AddMacros(SumCalculated(EnrichAll(rows[..i])), Enrich(rows[i]).calculated)
    ensures BucketsOf(EnrichAll(rows[..i + 1])) ==
      if IsMealType(rows[i].log.mealType) then Push(BucketsOf(EnrichAll(rows[..i])), rows[i].log.mealType, Enrich(rows[i]))
      else BucketsOf(EnrichAll(rows[..i]))
  {
    var e := Enrich(rows[i]);
    EnrichAllSnoc(rows, i);
    var es := EnrichAll(rows[..i]);
    var es' := EnrichAll(rows[..i + 1]);
    assert es' == es + [e];
    assert SumCalculated(es') == AddMacros(SumCalculated(es), e.calculated) by {
      SumCalculatedAppend(es, [e]);
      assert [e][1..] == [];
    }
    assert BucketsOf(es') == if IsMealType(rows[i].log.mealType) then Push(BucketsOf(es), rows[i].log.mealType, e) else BucketsOf(es) by {
      BucketsOfSnoc(es, e);
    }
  }

  /** The summary as the controller computes it: one pass over the logs in
      order, pushing each enriched log onto its bucket and adding its
      calculated macros into running totals, which are rounded at the end. */
  method BuildSummary(rows: seq<LogRow>, goal: Option<Goal>) returns (s: DailySummary)
    requires AllHaveBase(rows)
    ensures s == SummaryOf(rows, goal)
  {
    var totals := NoMacros;
    var byMeal := NoMeals;
    for i := 0 to |rows|
      invariant AllHaveBase(rows[..i])
      invariant totals == SumCalculated(EnrichAll(rows[..i]))
      invariant byMeal == BucketsOf(EnrichAll(rows[..i]))
    {
      var e := Enrich(rows[i]);
      SummaryStep(rows, i);
      if IsMealType(rows[i].log.mealType) {
        byMeal := Push(byMeal, rows[i].log.mealType, e);
      }
      totals := AddMacros(totals, e.calculated);
    }
    assert rows[..|rows|] == rows;
    var goals := if goal.Some? then Some(Targets(goal.value)) else None;
    s := DailySummary(RoundMacros(totals), goals, byMeal);
  }

  /** each field of a is within d of the field of b */
  predicate Within(a: Macros, b: Macros, d: real) {
    && -d <= a.calories - b.calories <= d
    && -d <= a.protein - b.protein <= d
    && -d <= a.carbs - b.carbs <= d
    && -d <= a.fats - b.fats <= d
  }

  /** Adding up already rounded values drifts from the exact sum by at most
      half a tenth per value. */
  lemma {:induction false} SumCalculatedNearExact(rows: seq<LogRow>)
    requires AllHaveBase(rows)
    ensures Within(SumCalculated(EnrichAll(rows)), ExactSum(rows), 0.05 * |rows| as real)
  {
    if |rows| > 0 {
      var es := EnrichAll(rows);
      assert AllHaveBase(rows[1..]);
      assert es[1..] == EnrichAll(rows[1..]);
      SumCalculatedNearExact(rows[1..]);
      assert MacrosRoundTo(es[0].calculated, Scaled(rows[0]));
    }
  }

  /** The day's totals, which round a sum of rounded values, stay within
      (n + 1) / 20 of the exact scaled sum over the n logs, the quantity the
      weekly aggregate reports unrounded. */
  lemma TotalsNearExact(rows: seq<LogRow>, goal: Option<Goal>)
    requires AllHaveBase(rows)
    ensures Within(SummaryOf(rows, goal).totals, ExactSum(rows), 0.05 * (|rows| + 1) as real)
  {
    SumCalculatedNearExact(rows);
    RoundedWithin(SummaryOf(rows, goal).totals, SumCalculated(EnrichAll(rows)), ExactSum(rows), 0.05 * |rows| as real);
  }

  /** Rounding a value within d of x lands within d + 0.05 of x. */
  lemma RoundedWithin(t: Macros, m: Macros, x: Macros, d: real)
    requires MacrosRoundTo(t, m) && Within(m, x, d)
    ensures Within(t, x, d + 0.05)
  {
  }

  /** The names every JavaScript object literal inherits from Object.prototype. */
  predicate IsInheritedMember(k: string) {
    k in {"constructor", "hasOwnProperty", "isPrototypeOf", "propertyIsEnumerable", "toLocaleString",
          "toString", "valueOf", "__proto__", "__defineGetter__", "__defineSetter__",
          "__lookupGetter__", "__lookupSetter__"}
  }

  /** `byMeal[k]` is a member inherited from Object.prototype rather than
      one of byMeal's own four arrays. */
  predicate LookupInherited(k: string) {
    !IsMealType(k) && IsInheritedMember(k)
  }

  /** No log's meal type looks up an inherited member. */
  predicate NoInheritedMealType(rows: seq<LogRow>) {
    forall j :: 0 <= j < |rows| ==> !LookupInherited(rows[j].log.mealType)
  }

  /** A prefix free of inherited meal types stays free when the next log's
      meal type is not one. */
  lemma NoInheritedSnoc(rows: seq<LogRow>, i: nat)
    requires i < |rows| && NoInheritedMealType(rows[..i])
    requires !LookupInherited(rows[i].log.mealType)
    ensures NoInheritedMealType(rows[..i + 1])
  {
    assert forall j :: 0 <= j < i ==> rows[..i + 1][j] == rows[..i][j];
  }

  /** The controller's loop as written. `byMeal[meal_type]` is one of the
      four arrays for a meal type; for a name inherited from Object.prototype
      it is a function, which is truthy, so `.push` is called on it and throws
      a TypeError, and the request ends in the catch block with status 500
      (None here); for any other name it is undefined and the log is skipped.
      So the summary fails exactly when some log's meal type names a member
      of Object.prototype, and otherwise equals the corrected summary. */
  method BuildSummaryAsWritten(rows: seq<LogRow>, goal: Option<Goal>) returns (r: Option<DailySummary>)
    requires AllHaveBase(rows)
    ensures !NoInheritedMealType(rows) ==> r == None
    ensures NoInheritedMealType(rows) ==> r == Some(SummaryOf(rows, goal))
  {
    var totals := NoMacros;
    var byMeal := NoMeals;
    for i := 0 to |rows|
      invariant AllHaveBase(rows[..i])
      invariant NoInheritedMealType(rows[..i])
      invariant totals == SumCalculated(EnrichAll(rows[..i]))
      invariant byMeal == BucketsOf(EnrichAll(rows[..i]))
    {
      var e := Enrich(rows[i]);
      var k := rows[i].log.mealType;
      if LookupInherited(k) {
        assert !NoInheritedMealType(rows) by {
          assert LookupInherited(rows[i].log.mealType);
        }
        return None;
      }
      NoInheritedSnoc(rows, i);
      SummaryStep(rows, i);
      if IsMealType(k) {
        byMeal := Push(byMeal, k, e);
      }
      totals := AddMacros(totals, e.calculated);
    }
    assert rows[..|rows|] == rows;
    var goals := if goal.Some? then Some(Targets(goal.value)) else None;
    r := Some(DailySummary(RoundMacros(totals), goals, byMeal));
  }

  /** A single log with meal type "constructor" makes the summary as written
      fail, while the corrected summary puts the log in no bucket and counts
      it in the totals. */
  lemma ConstructorMealTypeFails(row: LogRow)
    requires HasBase(row) && row.log.mealType == "constructor"
    ensures !NoInheritedMealType([row])
    ensures SummaryOf([row], None).byMeal == NoMeals
    ensures MacrosRoundTo(SummaryOf([row], None).totals, Calculate(row))
  {
    assert AllHaveBase([row]);
    var es := EnrichAll([row]);
    assert es == [Enrich(row)];
    assert SumCalculated(es) == Calculate(row) by {
      assert es[1..] == [];
    }
    assert Filter(es, InMeal(Breakfast)) == [];
    assert Filter(es, InMeal(Lunch)) == [];
    assert Filter(es, InMeal(Dinner)) == [];
    assert Filter(es, InMeal(Snack)) == [];
  }
}

=== FILE: text.dfy ===
/** The string operations the application relies on: `String.prototype.trim`,
    `toLowerCase`, `includes`, and the text ordering of a SQL `ORDER BY`. */
module Text {

  /** The characters ECMAScript's trim removes: its WhiteSpace (tab, vertical
      tab, form feed, space, no-break space, byte order mark and every space
      separator of Unicode category Zs) and its LineTerminator characters. */
  predicate IsSpace(c: char) {
    || c == '\t' || c == '\n' || c == '\U{000B}' || c == '\U{000C}' || c == '\r'
    || c == ' ' || c == '\U{00A0}' || c == '\U{1680}'
    || ('\U{2000}' <= c <= '\U{200A}')
    || c == '\U{2028}' || c == '\U{2029}' || c == '\U{202F}' || c == '\U{205F}'
    || c == '\U{3000}' || c == '\U{FEFF}'
  }

  /** s consists of white space only (the empty string included) */
  predicate IsBlank(s: string) {
    forall i :: 0 <= i < |s| ==> IsSpace(s[i])
  }

  /** s without its leading white space */
  function TrimStart(s: string): (r: string)
    ensures |r| <= |s| && r == s[|s| - |r|..]
    ensures |r| > 0 ==> !IsSpace(r[0])
    ensures forall i :: 0 <= i < |s| - |r| ==> IsSpace(s[i])
  {
    if |s| > 0 && IsSpace(s[0]) then TrimStart(s[1..]) else s
  }

  /** s without its trailing white space */
  function TrimEnd(s: string): (r: string)
    ensures |r| <= |s| && r == s[..|r|]
    ensures |r| > 0 ==> !IsSpace(r[|r| - 1])
    ensures forall i :: |r| <= i < |s| ==> IsSpace(s[i])
  {
    if |s| > 0 && IsSpace(s[|s| - 1]) then TrimEnd(s[..|s| - 1]) else s
  }

  /** `s.trim()`: s with no white space left at either end, empty exactly
      when s is blank */
  function Trim(s: string): (r: string)
    ensures |r| <= |s|
    ensures |r| > 0 ==> !IsSpace(r[0]) && !IsSpace(r[|r| - 1])
    ensures r == [] <==> IsBlank(s)
  {
    var t := TrimStart(s);
    TrimStartEmpty(s);
    TrimEndEmpty(t);
    TrimEndKeepsFirst(t);
    TrimEnd(t)
  }

  /** Trimming the start leaves nothing exactly when s is blank. */
  lemma TrimStartEmpty(s: string)
    ensures TrimStart(s) == [] <==> IsBlank(s)
  {
    var t := TrimStart(s);
    if t != [] {
      assert t[0] == s[|s| - |t|];
    }
  }

  /** Trimming the end leaves nothing exactly when s is blank. */
  lemma TrimEndEmpty(s: string)
    ensures TrimEnd(s) == [] <==> IsBlank(s)
  {
    var r := TrimEnd(s);
    if r != [] {
      assert r[|r| - 1] == s[|r| - 1];
    }
  }

  /** Trimming the end keeps the first character of what remains. */
  lemma TrimEndKeepsFirst(s: string)
    ensures |TrimEnd(s)| > 0 ==> TrimEnd(s)[0] == s[0]
  {
  }

  /** ASCII upper-case letters become lower-case; every other character is kept */
  function LowerChar(c: char): char {
    if 'A' <= c <= 'Z' then (c as int + 32) as char else c
  }

  /** `s.toLowerCase()`, character by character */
  function Lower(s: string): (r: string)
    ensures |r| == |s|
    ensures forall i :: 0 <= i < |s| ==> r[i] == LowerChar(s[i])
  {
    seq(|s|, i requires 0 <= i < |s| => LowerChar(s[i]))
  }

  /** needle occurs in hay starting at position i */
  predicate OccursAt(needle: string, hay: string, i: nat) {
    i + |needle| <= |hay| && hay[i..i + |needle|] == needle
  }

  /** `hay.includes(needle)`: true exactly when needle occurs somewhere in
      hay (the empty needle occurs everywhere) */
  function Includes(hay: string, needle: string): (b: bool)
    ensures b <==> exists i: nat :: OccursAt(needle, hay, i)
    decreases |hay|
  {
    if needle <= hay then
      assert OccursAt(needle, hay, 0);
      true
    else if |hay| == 0 then
      assert forall i: nat :: !OccursAt(needle, hay, i);
      false
    else
      var b := Includes(hay[1..], needle);
      assert forall i: nat :: OccursAt(needle, hay[1..], i) <==> OccursAt(needle, hay, i + 1) by {
        forall i: nat
          ensures OccursAt(needle, hay[1..], i) <==> OccursAt(needle, hay, i + 1)
        {
          if i + 1 + |needle| <= |hay| {
            assert hay[1..][i..i + |needle|] == hay[i + 1..i + 1 + |needle|];
          }
        }
      }
      assert !OccursAt(needle, hay, 0);
      assert forall i: nat :: OccursAt(needle, hay, i) ==> i > 0;
      assert b ==> exists i: nat :: OccursAt(needle, hay, i) by {
        if b {
          var j: nat :| OccursAt(needle, hay[1..], j);
          assert OccursAt(needle, hay, j + 1);
        }
      }
      assert (exists i: nat :: OccursAt(needle, hay, i)) ==> b by {
        if exists i: nat :: OccursAt(needle, hay, i) {
          var j: nat :| OccursAt(needle, hay, j);
          assert OccursAt(needle, hay[1..], j - 1);
        }
      }
      b
  }

  /** Strict lexicographic order on strings by code point: the order of
      ORDER BY on a text column under a code-point collation. */
  predicate StrLt(a: string, b: string)
    decreases |a|
  {
    if |a| == 0 then |b| > 0
    else if |b| == 0 then false
    else a[0] < b[0] || (a[0] == b[0] && StrLt(a[1..], b[1..]))
  }

  /** No string precedes itself. */
  lemma {:induction false} StrLtIrreflexive(a: string)
    ensures !StrLt(a, a)
  {
    if |a| > 0 {
      StrLtIrreflexive(a[1..]);
    }
  }

  /** The text order is transitive. */
  lemma {:induction false} StrLtTransitive(a: string, b: string, c: string)
    requires StrLt(a, b) && StrLt(b, c)
    ensures StrLt(a, c)
  {
    if |a| > 0 && |b| > 0 && |c| > 0 && a[0] == b[0] == c[0] {
      StrLtTransitive(a[1..], b[1..], c[1..]);
    }
  }

  /** Any two different strings are ordered one way or the other. */
  lemma {:induction false} StrLtTotal(a: string, b: string)
    requires a != b
    ensures StrLt(a, b) || StrLt(b, a)
  {
    if |a| > 0 && |b| > 0 && a[0] == b[0] {
      assert a == [a[0]] + a[1..] && b == [b[0]] + b[1..];
      StrLtTotal(a[1..], b[1..]);
    }
  }
}

=== FILE: wrappers.dfy ===
/** Optional values: the model's stand-in for JavaScript's null/undefined and
    for a database row that may be absent. */
module Wrappers {

  datatype Option<+T> = None | Some(value: T)
}
